=== FILE: README.md ===
# Plan de Acción UCC, modelled in Dafny

The application tracks a university's action plan. An administrator creates
processes, goals and user accounts. Each process owner ("jefe de proceso")
records actions under the goals of their assigned processes. Every action has
four quarters. The owner uploads evidence for a quarter and sends it for
review. The administrator approves the quarter, storing an execution
percentage and opening the next quarter, or rejects it with a reason.

This project models the server's request handlers and the client's decision
functions as pure Dafny functions over an immutable store:

- `Quarters`: the per-action review state machine. It covers the five
  status codes, sending, approving and rejecting a quarter, the progress
  figure (the mean of the four percentages), and the owner's field update.
- `Store`: the database as maps from ids to users, processes, goals,
  actions and evidences, plus the set of (user, process) assignments.
- `ActionController`, `GoalController`, `UserController`, `AuthController`,
  `ProcessController`, `EvidenceController`: the HTTP handlers. Each returns
  either `Err(status, message)` or the new store. The two delete handlers
  also return the store on their 404 path, because they delete before they
  look.
- `AuthMiddleware`: bearer-token extraction and the role gate.
- `QuarterModule`, `AdminReview`, `ActionItem`, `PasswordStrength`
  (activation and profile pages), `DashboardDates`, `GoalForm`, `Header`,
  `ProtectedRoute`, `FilePreview`: the client's guards and small decision
  functions. Each returns `Refused(message)`, `Cancelled` or
  `Proceed(request)`, or a view or route choice.
- `Wrappers`, `Text`, `Ordering`: shared result types, string functions
  (split, trim, ASCII case mapping, code-point order) and sorting.

Things the program gets from outside are parameters:

- password hashing and comparison (bcrypt): `matches` and a given new hash;
- token signing and verification (jsonwebtoken, jwt-decode): `sign`,
  `verify` and `decode`;
- the three random bytes of an activation code;
- today's date;
- the "three months after" date helper;
- the page origin;
- the fresh ids the database assigns.

## Model

| member | source | states |
|---|---|---|
| Quarters.Send | backend/src/controllers/actionController.js:146-150 | Send succeeds exactly when the quarter is Draft(1) or Rejected(4). It then moves only that quarter's status to Submitted(2). Otherwise it is 404 "not found or invalid state". |
| Quarters.SendTwiceFails | backend/src/controllers/actionController.js:146-150 | A second consecutive send of the same quarter fails with 404. |
| Quarters.Review | backend/src/controllers/actionController.js:214-235 | Approval sets the quarter to Approved(3) with the given percentage, whatever its prior status. For q < 4 it sets q+1 to Draft(1). Rejection needs a non-empty reason, sets Rejected(4) and overwrites the single reason; no percentage changes. Both keep every other slot and field, and leave the progress equal to the mean of the slots. |
| Quarters.ReviewProgress | backend/src/controllers/actionController.js:226-235 | The stored progress is (t1+t2+t3+t4)/4 over the old percentages, with unset counted as 0 and the approved quarter's new percentage substituted. |
| Quarters.MeanInRange | backend/src/controllers/actionController.js:234 | The mean of four percentages in [0,100] is in [0,100]. |
| Quarters.ReviewKeepsRange | backend/src/controllers/actionController.js:214-235 | If all percentages and the approved one are in [0,100], they stay in range after a review, and so does the progress. |
| Quarters.RejectKeepsProgress | backend/src/controllers/actionController.js:220-235 | A rejection leaves a consistent progress figure unchanged. |
| Quarters.UpdateFields | backend/src/controllers/actionController.js:112-123 | A field update never changes a status, a percentage, the progress or the rejection reason. |
| Quarters.UpdateFieldsExact | backend/src/controllers/actionController.js:112-125 | Each supplied field of the eight takes its new value. Each omitted field keeps its old value. An empty update changes nothing. |
| Quarters.UpdateFieldsIdempotent | backend/src/controllers/actionController.js:104-128 | Applying the same update twice equals applying it once. |
| ActionController.UpdateActionFields | backend/src/controllers/actionController.js:104-128 | Only the addressed action's row changes, by exactly the field update. An empty body or an unknown id leaves the store unchanged. |
| ActionController.SendQuarter | backend/src/controllers/actionController.js:138-156 | A missing quarter, or one outside 1..4, is 400. Otherwise the call succeeds exactly when the action exists and the quarter is sendable, and only that action changes. Failure is 404. |
| ActionController.SendQuarterTwice | backend/src/controllers/actionController.js:146-150 | Two consecutive sends through the handler: the second answers 404. |
| ActionController.ReviewQuarter | backend/src/controllers/actionController.js:195-239 | The checks run in this order: quarter (400), then action exists (404), then a rejection's reason (400). On success only that action changes, as Review says, and its progress is consistent. |
| ActionController.ApproveOpensNextQuarter | backend/src/controllers/actionController.js:214-219 | Approving q < 4 always succeeds and leaves q+1 sendable, so the next send succeeds. |
| ActionController.PendingActions | backend/src/controllers/actionController.js:161-186 | The pending list holds exactly the actions whose joins succeed and that have a quarter with status 2. Each row carries exactly that action's evidences. |
| ActionController.PendingExactlySubmitted | backend/src/controllers/actionController.js:167 | In a well-formed store the list is exactly the actions with a Submitted quarter. |
| ActionController.DeleteAction | backend/src/controllers/actionController.js:248-259 | The action's evidences are removed, then the action. Nothing else changes. An unknown id is 404, but the evidence delete still runs. |
| ActionController.DeleteActionWellformed | backend/src/controllers/actionController.js:251-253 | Deleting keeps the store well-formed. Deleting an unknown action from a well-formed store changes nothing. |
| GoalController.AssignedProcesses | backend/src/controllers/goalController.js:10-11 | The processes assigned to a user are exactly the pairs in the assignment table. |
| GoalController.GoalsForJefe | backend/src/controllers/goalController.js:10-19 | The owner's goals are exactly those whose process is assigned to them, in id order. No assignment gives []. |
| GoalController.CreateGoal | backend/src/controllers/goalController.js:26-50 | A missing or empty description, or a missing or 0 process id, is 400 and inserts nothing. Otherwise one goal is added with '' for missing eje, sub-eje and indicator, and null for missing or empty dates. |
| GoalController.ActionsOf | backend/src/controllers/goalController.js:89-98 | A goal's action nodes are exactly the actions with its goal id. Each carries exactly its evidences. |
| GoalController.GoalsByProcess | backend/src/controllers/goalController.js:57-103 | A missing processId is 400. Otherwise the result lists exactly the process's goals in id order, each nested faithfully. |
| GoalController.UpdateGoal | backend/src/controllers/goalController.js:112-143 | Only present dates are written, with '' stored as null. Neither date present means no change. An unknown goal is 404. Nothing else changes. |
| GoalController.UpdateGoalAcceptsAnyOrder | backend/src/controllers/goalController.js:121-134 | The server stores any pair of dates, even an end before the start or more than three months later. |
| GoalController.DeleteGoal | backend/src/controllers/goalController.js:146-165 | The goal, all its actions and all their evidences are removed, and nothing else. An unknown goal is 404 after the cascade has run. |
| GoalController.DeleteGoalCascade | backend/src/controllers/goalController.js:150-157 | In a well-formed store the remaining evidences are exactly those not attached to one of the goal's actions. The store stays well-formed. Deleting an unknown goal changes nothing. |
| UserController.Hex | backend/src/controllers/userController.js:50 | The hex encoding has two lower-case hex digits per byte. |
| UserController.ActivationCode | backend/src/controllers/userController.js:50 | The activation code is 6 upper-case hex characters. |
| UserController.HexRoundTrip | backend/src/controllers/userController.js:50 | Decoding the upper-cased hex encoding gives back the bytes. |
| UserController.ActivationCodeRoundTrip | backend/src/controllers/userController.js:50 | Distinct random bytes give distinct codes, since the code decodes back to its bytes. |
| UserController.CreateUser | backend/src/controllers/userController.js:36-66 | Missing name, email or role is 400. A registered email is 400. Otherwise exactly one user is added: inactive, without a password, with the returned 6-character code as token. |
| UserController.CreateUserKeepsEmailsUnique | backend/src/controllers/userController.js:44-47 | Creating a user keeps emails unique. |
| UserController.ToggleUserStatus | backend/src/controllers/userController.js:74-100 | A requester deactivating themself is 400. Otherwise the call succeeds iff the user exists, sets only `is_active`, and touches only that user. Unknown is 404. |
| UserController.ToggleNeverDisablesRequester | backend/src/controllers/userController.js:83-85 | An active requester is still active after any successful toggle. |
| UserController.AssignProcess | backend/src/controllers/userController.js:103-123 | A missing or 0 process_id is 400. Otherwise the pair is inserted into the set and nothing else changes. |
| UserController.UnassignProcess | backend/src/controllers/userController.js:126-137 | Exactly the given pair is removed. An absent pair is no error. |
| UserController.AssignIdempotent | backend/src/controllers/userController.js:112-117 | Assigning twice equals assigning once. Assigning an existing pair changes nothing. |
| UserController.UnassignUndoesAssign | backend/src/controllers/userController.js:112-131 | Unassigning a freshly assigned pair restores the store. Unassigning an absent pair changes nothing. |
| UserController.AssignmentDrivesGoalList | backend/src/controllers/userController.js:112-131 | After assigning p, every goal of p is in the owner's goal list. After unassigning p, none is. |
| UserController.ResetUserAccess | backend/src/controllers/userController.js:140-169 | Sets `is_active` false and a fresh 6-character token, keeps the password hash, and touches only that user. Unknown is 404. |
| UserController.ResetKeepsEmailsUnique | backend/src/controllers/userController.js:149-155 | A reset keeps emails unique. |
| AuthController.AccountWithEmail | backend/src/controllers/authController.js:14-20 | The row found for an email exists exactly when the email is registered, and it has that email. |
| AuthController.AccountWithEmailUnique | backend/src/controllers/authController.js:14-20 | With unique emails the lookup finds exactly the user with that email. |
| AuthController.Login | backend/src/controllers/authController.js:10-57 | An unknown email is 400. A success returns a token signed over {id, role, name} and the role id. For a string password, every failure is 400 or 403. |
| AuthController.InactiveRefusedWhateverPassword | backend/src/controllers/authController.js:23-31 | An inactive user gets 403 whatever the password: the activation message while a token is pending, the "disabled" message otherwise. |
| AuthController.WrongPasswordLooksLikeUnknownEmail | backend/src/controllers/authController.js:41-44 | A wrong password answers exactly like an unknown email. |
| AuthController.LoginSucceedsIff | backend/src/controllers/authController.js:23-52 | Login succeeds iff the account is active, has a hash, and the password matches it; the token then names the account's id, role and name. An active account without a hash is 400 "not activated". A wrong password for an active account is 400 "invalid credentials". |
| AuthController.ActivationKey | backend/src/controllers/authController.js:66 | The lookup key is the upper-cased code, or '' when none is given. |
| AuthController.Activate | backend/src/controllers/authController.js:60-89 | Activation fails with 400 exactly when no user has this email and the upper-cased code. Otherwise that user gets the new hash, becomes active and loses the token; nothing else changes. |
| AuthController.ActivateKeepsEmailsUnique | backend/src/controllers/authController.js:79-82 | Activation keeps emails unique. |
| AuthController.ActivationIsSingleUse | backend/src/controllers/authController.js:79-82 | After a successful activation, any further activation for that email fails, whatever code is given. |
| AuthController.ActivationIgnoresCase | backend/src/controllers/authController.js:66 | A lower-case code activates exactly as its upper-case original. |
| AuthController.CreateActivateLogin | backend/src/controllers/authController.js:60-89 | A created user cannot log in. Activating with the returned code in any letter case succeeds. Then login with the chosen password succeeds with the user's role. |
| AuthController.ResetBlocksLogin | backend/src/controllers/authController.js:23-29 | After a reset, login is refused with the activation message whatever the password. |
| AuthController.ChangePassword | backend/src/controllers/authController.js:111-138 | A mismatching current password is 400 and leaves the hash unchanged. An unknown user or a null hash is 500. A success replaces only that user's hash. |
| AuthController.ChangePasswordThenLogin | backend/src/controllers/authController.js:117-131 | After a change, the new password logs in and the old one no longer does. |
| AuthMiddleware.BearerToken | backend/src/middleware/authMiddleware.js:11 | The extracted token is non-empty and contains no space. |
| AuthMiddleware.BearerRoundTrip | backend/src/middleware/authMiddleware.js:11-14 | From "scheme token" the token is recovered exactly. |
| AuthMiddleware.NoSpaceNoToken | backend/src/middleware/authMiddleware.js:11-14 | A header without a space yields no token. |
| AuthMiddleware.Authenticate | backend/src/middleware/authMiddleware.js:3-26 | A missing header is 401. A missing second part is 401. A failed verification is 400. Success passes on exactly the payload's user. |
| AuthMiddleware.CheckRole | backend/src/middleware/authMiddleware.js:29-37 | The role gate passes iff a user is present and its role equals the allowed role, otherwise 403. |
| AuthMiddleware.IssuedTokenPasses | backend/src/middleware/authMiddleware.js:3-37 | "Bearer token" for a token issued to p authenticates as p and passes the gate of p's role and no other. |
| ProcessController.CreateProcess | backend/src/controllers/processController.js:26-47 | A missing or whitespace-only name is 400. A name whose trimmed form is taken is 409. Otherwise exactly one process named by the trimmed input is added. |
| ProcessController.CreateProcessIgnoresPadding | backend/src/controllers/processController.js:30-36 | A padded name behaves exactly like its trimmed form. |
| ProcessController.BlankIffAllSpace | backend/src/controllers/processController.js:30-32 | The 400 "name required" answer is given exactly for all-whitespace names. |
| ProcessController.CreateProcessKeepsNamesUnique | backend/src/controllers/processController.js:40-43 | Creation keeps process names unique. |
| ProcessController.AllProcesses | backend/src/controllers/processController.js:11-20 | The list holds every process exactly once, ordered by name ascending. |
| EvidenceController.UploadEvidence | backend/src/controllers/evidenceController.js:3-30 | No file is 400. A missing quarter or action id is 400. Otherwise exactly one evidence is added, with url "uploads/" + the name the upload middleware stored the file under, the given description, quarter and action, and the uploader from the token. |
| EvidenceController.AnyQuarterAccepted | backend/src/controllers/evidenceController.js:11-13 | Any present quarter and action id are accepted; no range or status check is made. |
| EvidenceController.UploadKeepsWellformed | backend/src/controllers/evidenceController.js:19-22 | Uploading for an existing action keeps the store well-formed, and the new evidence is listed under that action. |
| QuarterModule.StatusDetails | frontend/src/components/QuarterModule.jsx:18-33 | Statuses 1..5 get their labels and colours. Anything else gets 'N/A' in gray. |
| QuarterModule.StatusLabelsDistinct | frontend/src/components/QuarterModule.jsx:18-33 | The five labels are pairwise distinct. |
| QuarterModule.GatingAgreesWithServer | frontend/src/components/QuarterModule.jsx:88-90 | `canSend` holds exactly for the statuses the server's send accepts. For 1..5 exactly one of `isLocked` and `canSend` holds. |
| QuarterModule.View | frontend/src/components/QuarterModule.jsx:169-211 | Blocked hides the whole body. The upload input shows exactly when the quarter is neither Blocked nor locked, and its button exactly when a file is also chosen. The send button shows exactly for Draft and Rejected, the statuses the server's send accepts. The rejection note shows exactly for Rejected with a reason. |
| QuarterModule.SendButtonMeansSendSucceeds | frontend/src/components/QuarterModule.jsx:207-211 | The send button shows exactly when the server's send of that quarter succeeds, in both directions. |
| QuarterModule.UploadRequest | frontend/src/components/QuarterModule.jsx:97-105 | No chosen file is refused. Otherwise the form carries the file, its name as description, the quarter and the action id. |
| QuarterModule.UploadRequestAccepted | frontend/src/components/QuarterModule.jsx:97-110 | Every upload the page sends is accepted by the server. The record's url is "uploads/" + the middleware's stored name, and the chosen name survives only as the description. |
| QuarterModule.SendRequest | frontend/src/components/QuarterModule.jsx:120-145 | Zero evidences is refused before any request. Otherwise the quarter is sent iff the dialog is confirmed. |
| QuarterModule.SendRequestAccepted | frontend/src/components/QuarterModule.jsx:120-145 | A send made from a shown send button is accepted by the server. The server counts no evidences, so it accepts the quarter even with every evidence gone, while the page refuses zero evidences. |
| AdminReview.Clamp | frontend/src/components/AdminReviewModule.jsx:49-57 | NaN gives 0, below 0 gives 0, above 100 gives 100, and anything else is kept. The result is always in [0,100]. |
| AdminReview.ClampIdempotent | frontend/src/components/AdminReviewModule.jsx:49-57 | Clamping twice equals clamping once. |
| AdminReview.Submit | frontend/src/components/AdminReviewModule.jsx:60-98 | Rejection with an empty or blank reason is refused. Approval outside [0,100] is refused. Otherwise the request (quarter, isApproved, percentage, reason) is sent iff confirmed. |
| AdminReview.RangeGuardNeverFires | frontend/src/components/AdminReviewModule.jsx:49-71 | With the percentage coming from the clamp, the range refusal cannot happen. |
| AdminReview.FormStricterThanServer | frontend/src/components/AdminReviewModule.jsx:61-67 | Every review the form sends is accepted by the server. A blank reason " " is refused by the form but accepted by the server. |
| AdminReview.FormKeepsPercentsInRange | frontend/src/components/AdminReviewModule.jsx:69-98 | Reviews sent through the form keep every percentage and the progress in [0,100]. |
| ActionItem.StatusDetails | frontend/src/components/ActionItem.jsx:8-23 | Every status other than Submitted gets exactly the quarter panel's tag, so 1..5 have fixed texts and anything else is 'N/A'. Submitted is 'Enviado' in the panel's colour, a text different from the panel's. |
| ActionItem.OverallQuarter | frontend/src/components/ActionItem.jsx:26-37 | The reported quarter is the highest of 4, 3, 2 not blocked, or 1. Every quarter above it is blocked. |
| ActionItem.OverallStatus | frontend/src/components/ActionItem.jsx:26-37 | The summary shows the reported quarter and that quarter's label. |
| ActionItem.OverallQuarterUnique | frontend/src/components/ActionItem.jsx:26-37 | The reported quarter is the only one with all higher quarters blocked and itself not blocked (or 1). |
| ActionItem.FirstQuarterFallback | frontend/src/components/ActionItem.jsx:36 | If t2..t4 are all blocked, quarter 1 is reported whatever its status. |
| ActionItem.ApprovalAdvancesSummary | frontend/src/components/ActionItem.jsx:26-37 | After approving q < 4 the summary reports a quarter above q. |
| PasswordStrength.CheckPassword | frontend/src/pages/ActivateAccount.jsx:116-123 | Each check holds iff: length is at least 8; there is an A-Z; there is a 0-9; there is a character of the special set. |
| PasswordStrength.Score | frontend/src/pages/ActivateAccount.jsx:126 | The score is at most 4. It is 4 iff all checks hold and 0 iff none does. |
| PasswordStrength.ScoreNeverDrops | frontend/src/pages/ActivateAccount.jsx:116-127 | Appending characters never lowers the score. |
| PasswordStrength.BarColor | frontend/src/pages/ActivateAccount.jsx:180-184 | Red iff score is at most 1, yellow iff it is 2 or 3, green iff above 3. |
| PasswordStrength.GreenIffStrong | frontend/src/pages/ProfilePage.jsx:101-105 | The bar is green exactly for passwords the forms accept. |
| PasswordStrength.SubmitActivation | frontend/src/pages/ActivateAccount.jsx:130-156 | Score below 4 is refused first, then a confirmation mismatch. Otherwise the request is exactly (email, code, password). |
| PasswordStrength.SubmitChange | frontend/src/pages/ProfilePage.jsx:121-132 | Score below 4 is refused, then a mismatch. Otherwise the request is exactly (currentPassword, newPassword). |
| PasswordStrength.AfterSubmit | frontend/src/pages/ProfilePage.jsx:121-139 | The fields are either kept or cleared. They are cleared only when the request was sent and the server answered with success. A refusal before the request keeps them. |
| PasswordStrength.ClearedIffChanged | frontend/src/pages/ProfilePage.jsx:128-138 | For a sent request, the fields are cleared iff the server's password change succeeds. A failed change, such as a wrong current password, keeps them as typed. |
| PasswordStrength.PagesAgree | frontend/src/pages/ProfilePage.jsx:89-99 | The activation and profile pages accept exactly the same new passwords. |
| PasswordStrength.StrongExample | frontend/src/pages/ActivateAccount.jsx:116-127 | "Clave#2025" scores 4. |
| DashboardDates.StartEditing | frontend/src/pages/DashboardJefe.jsx:88-95 | Editing the end without a start is refused. Otherwise the editor opens with the date's first 10 characters, or '' if none. |
| DashboardDates.ReopenAndSaveUnchanged | frontend/src/pages/DashboardJefe.jsx:88-129 | Opening the editor on a stored date and saving it unchanged sends that date's first 10 characters for the same field. A start is always sent. An end is sent whenever it passes the two checks. |
| DashboardDates.MaxEndDate | frontend/src/pages/DashboardJefe.jsx:116 | Without a start the maximum end date is ''. |
| DashboardDates.SaveDateAsWritten | frontend/src/pages/DashboardJefe.jsx:97-129 | As written: an empty date just closes. A past start only warns and is saved. An end before the raw start string, or after the maximum, is refused. Only end dates are refused. Otherwise exactly one date is sent. |
| DashboardDates.SaveDate | frontend/src/pages/DashboardJefe.jsx:97-129 | Corrected: an empty date just closes. A past start only warns and is saved. An end before the start's day, or after the maximum, is refused. Otherwise exactly one date is sent. |
| DashboardDates.SameDayEndRefusedAsWritten | frontend/src/pages/DashboardJefe.jsx:111-115 | As written, an end on the start's own day is refused whenever the start is a full timestamp. |
| DashboardDates.TimestampStartExample | frontend/src/pages/DashboardJefe.jsx:111-115 | The start "2025-01-15T05:00:00.000Z" with end "2025-01-15" is refused as written and not refused when corrected. |
| DashboardDates.SameDayEndNotBeforeStart | frontend/src/pages/DashboardJefe.jsx:111-115 | Corrected, an end on the start's day is never refused as "before the start". |
| DashboardDates.AgreeOnBareDates | frontend/src/pages/DashboardJefe.jsx:111-115 | For bare YYYY-MM-DD starts the corrected and as-written checks agree. |
| DashboardDates.Fields | frontend/src/pages/DashboardJefe.jsx:125-127 | The payload holds exactly one of start_date and end_date. |
| DashboardDates.SavedRequestChangesOneDate | frontend/src/pages/DashboardJefe.jsx:124-129 | A saved edit, applied by the server, changes only that date of that goal. |
| DashboardDates.ApplyLocally | frontend/src/pages/DashboardJefe.jsx:131-138 | The local list changes only the edited date of the edited goal. |
| GoalForm.OnStartChange | frontend/src/components/GoalForm.jsx:40-56 | With no start the maximum is ''. Otherwise the maximum is three months after the start. The end is cleared exactly when it exceeds that maximum, and nothing else changes. |
| GoalForm.OnStartChangeIdempotent | frontend/src/components/GoalForm.jsx:40-56 | Running the effect twice equals running it once. |
| GoalForm.Submit | frontend/src/components/GoalForm.jsx:63-85 | A missing description or process is refused. A start after the end is refused when both are set. Otherwise empty dates are sent as null and the other fields as typed. |
| GoalForm.SubmittedGoalCreated | frontend/src/components/GoalForm.jsx:63-85 | Every goal the form submits is created by the server. |
| Header.ProfilePath | frontend/src/components/Header.jsx:88-92 | The profile route is the profile page inside the role's home: '/admin/profile' iff role 1, else '/dashboard/profile'. |
| Header.ProfileLink | frontend/src/components/Header.jsx:77-98 | The link is '/admin/profile' iff a token is present, its payload reads, and its user has role 1. Otherwise it stays '/dashboard/profile'. |
| Header.ProfileLinkUnderHome | frontend/src/main.jsx:40-115 | The profile link lies inside the home the route guard sends the token's role to. For roles 1 and 2, that home's route tree renders. |
| Header.Initials | frontend/src/components/Header.jsx:101-106 | An empty or absent name gives 'U'. Otherwise the result has at most 2 characters and no lower-case letter. |
| Header.OneWordInitial | frontend/src/components/Header.jsx:103-104 | A one-word name gives its first character upper-cased. |
| Header.TwoWordInitials | frontend/src/components/Header.jsx:105 | "first rest" gives the upper-cased first characters of both parts. |
| Header.BlankNameNoInitial | frontend/src/components/Header.jsx:102-105 | A name of one space is truthy but yields no initial at all. |
| ProtectedRoute.Home | frontend/src/components/ProtectedRoute.jsx:24-27 | The home is '/admin' iff the role is 1, else '/dashboard'. |
| ProtectedRoute.Decide | frontend/src/components/ProtectedRoute.jsx:11-38 | No token goes to /login. An undecodable token, or one without a user, is removed and goes to /login. The outlet renders iff the role is allowed. Otherwise the redirect is '/admin' iff the role is 1, else '/dashboard'. |
| ProtectedRoute.GuardAgreesWithServer | frontend/src/components/ProtectedRoute.jsx:19-31 | For a server-issued token, the page of a single-role route renders iff the server's role gate lets the same token through. |
| ProtectedRoute.RedirectTargets | frontend/src/components/ProtectedRoute.jsx:24-28 | The admin route sends a non-admin to '/dashboard'. The owner route sends the admin to '/admin'. |
| FilePreview.Extension | frontend/src/components/FilePreview.jsx:54 | The extension contains no dot and no upper-case letter, and it is absent only without a file name. |
| FilePreview.ExtensionOfDottedName | frontend/src/components/FilePreview.jsx:54 | The extension of "stem.ext" is the lower-cased ext, whatever the stem. |
| FilePreview.ExtensionOfPlainName | frontend/src/components/FilePreview.jsx:54 | A name without a dot is its own extension, lower-cased. |
| FilePreview.FullUrl | frontend/src/components/FilePreview.jsx:60 | The link is the origin, '/', then the stored url. |
| FilePreview.Render | frontend/src/components/FilePreview.jsx:55-72 | Only files that are neither image nor pdf get the bare download link. A preview is exactly one of image or pdf. Every link targets the full url. |
| FilePreview.CaseInsensitiveTypes | frontend/src/components/FilePreview.jsx:54-56 | "SCAN.PDF" is a pdf and "Photo.JPG" an image. |
| FilePreview.EvidenceLink | frontend/src/components/FilePreview.jsx:60 | An uploaded evidence is linked at origin + "/uploads/" + the name it was stored under. |

## Left out

- SQL text, the connection pool and column defaults: the store is a datatype of maps and a set. New ids are parameters. A freshly created action is never built, because its initial quarter statuses come from database defaults that are not visible.
- The database's foreign keys and unique constraints, except process-name uniqueness (409), which the handler reports. Inserts of rows that point to missing goals, processes or users are not refused.
- Row order where the source sorts by creation time: the pending list and goal nesting are maps keyed by id. Goal lists are in id order. The process list is sorted by name in code-point order, standing in for the database collation.
- The order in which the database returns several users with one email: the lookup is an unspecified choice. Every property about a single user assumes emails are unique, which the handlers keep.
- bcrypt, jsonwebtoken, jwt-decode and random bytes: these are parameters. Token expiry ("1h") is not modelled.
- Multer storage and its file-name generation (field name, time, random number, extension): the name the file is stored under is a parameter of `QuarterModule.UploadRequestAccepted` and of the handler's input.
- Excel export and statistics handlers, `getAllUsers`, `getActionsByGoal`, `createActionForGoal` and `updateProfile`: these are plain queries and inserts outside the review machine, and are not part of this model.
- JavaScript `Date`: `getMaxEndDate`, the goal form's "+3 months" and today's date are parameters.
- JavaScript coercions: quarters are integers and percentages are exact reals. `parseFloat` is modelled only as "unset or unparsable counts 0". The evidence form sends the quarter as text; it is modelled as a present number.
- UserController.ToggleUserStatus: compares ids as numbers. The source compares the route parameter (a string) to the token's id with `===`, and that comparison's outcome depends on the id type, which is not visible.
- Text: only upper- and lower-casing are ASCII-only (whitespace for trimming is the full JavaScript set), and lengths count characters, not UTF-16 units.
- Concurrency between simultaneous requests, HTTP 500 paths for database failures, React rendering, styling, toasts and dialogs (a dialog is a boolean input), routes and layouts.
- AuthController.Login, AuthController.Activate and AuthController.ChangePassword: the password fields are always strings. A body without a string password makes the bcrypt call reject, and the handler answers 500; that path is not modelled.
- Quarters.UpdateFields and ActionController.UpdateActionFields: an update field is either absent or a value. An explicit JSON null passes the source's `!== undefined` test and writes NULL (clearing budget, activities, observations, responsible or a completion text); that write is not modelled, and the app's own action form never sends one.
- AuthController.Login, AuthController.Activate and AuthController.AccountWithEmail: ghost, because the email lookup is an unspecified choice.

## Findings

| source | as written | input that shows it | evidently intended | confidence | as-written member | corrected member |
|---|---|---|---|---|---|---|
| frontend/src/pages/DashboardJefe.jsx:111-115 | The picked end day (YYYY-MM-DD) is compared with the goal's raw start value, which the server returns as a timestamp. The same page cuts that value to 10 characters for display and for the picker's minimum. | start "2025-01-15T05:00:00.000Z", end "2025-01-15": refused as "before the start" although it is the start's own day. | Compare against the start's first 10 characters, so an end on the start day is allowed. | medium, not executed | DashboardDates.SaveDateAsWritten | DashboardDates.SaveDate |

=== FILE: action_controller.dfy ===
/** The action endpoints: field update, send, pending list, review and
    delete, each a pure function of the store. */
module ActionController {
  import opened Wrappers
  import opened Quarters
  import opened Store

  const InvalidQuarter := "Trimestre inválido."
  const ActionNotFound := "Acción no encontrada"
  const ActionDeleted := "Acción eliminada correctamente"

  /** The `quarter` body field passes the handlers' guard. */
  predicate QuarterOk(quarter: Option<int>) {
    quarter.Some? && ValidQuarter(quarter.value)
  }

  /** The store with only the row of action `id` replaced. */
  ghost predicate OnlyActionChanged(s: Store, t: Store, id: int) {
    && t.(actions := s.actions) == s
    && t.actions.Keys == s.actions.Keys
    && forall other :: other in s.actions && other != id ==> t.actions[other] == s.actions[other]
  }

  /** PUT /actions/:id. Supplied fields are written; an empty body answers
      "no changes" without touching the store; an unknown id updates no
      row and is not reported as an error. */
  function UpdateActionFields(s: Store, id: int, u: FieldUpdate): (t: Store)
    ensures OnlyActionChanged(s, t, id)
    ensures id in s.actions ==> t.actions[id] == UpdateFields(s.actions[id], u)
    ensures u.IsEmpty() || id !in s.actions ==> t == s
  {
    if u.IsEmpty() || id !in s.actions then s
    else s.(actions := s.actions[id := UpdateFields(s.actions[id], u)])
  }

  /** POST /actions/:id/send. */
  function SendQuarter(s: Store, id: int, quarter: Option<int>): (r: Result<Store>)
    ensures !QuarterOk(quarter) ==> r == Err(BadRequest, InvalidQuarter)
    ensures QuarterOk(quarter) ==>
      (r.Ok? <==> id in s.actions && Sendable(s.actions[id].At(quarter.value).status))
    ensures QuarterOk(quarter) && r.Err? ==> r == Err(NotFound, SendRefused)
    ensures r.Ok? ==> OnlyActionChanged(s, r.value, id)
    ensures r.Ok? ==> r.value.actions[id] == Send(s.actions[id], quarter.value).value
  {
    if !QuarterOk(quarter) then Err(BadRequest, InvalidQuarter)
    else if id !in s.actions then Err(NotFound, SendRefused)
    else
      var a :- Send(s.actions[id], quarter.value);
      Ok(s.(actions := s.actions[id := a]))
  }

  /** Two consecutive sends of the same quarter: the second one fails,
      whatever the first did. */
  lemma SendQuarterTwice(s: Store, id: int, quarter: Option<int>)
    requires SendQuarter(s, id, quarter).Ok?
    ensures SendQuarter(SendQuarter(s, id, quarter).value, id, quarter) == Err(NotFound, SendRefused)
  {
    SendTwiceFails(s.actions[id], quarter.value);
  }

  /** POST /actions/:id/review. The quarter is checked first, then the
      action's existence, then (for a rejection) the reason. */
  function ReviewQuarter(s: Store, id: int, quarter: Option<int>, isApproved: bool,
                         percentage: Option<real>, reason: string): (r: Result<Store>)
    ensures !QuarterOk(quarter) ==> r == Err(BadRequest, InvalidQuarter)
    ensures QuarterOk(quarter) && id !in s.actions ==> r == Err(NotFound, ActionNotFound)
    ensures QuarterOk(quarter) && id in s.actions ==>
      (r.Err? <==> !isApproved && reason == "")
    ensures r.Ok? ==> OnlyActionChanged(s, r.value, id)
    ensures r.Ok? ==>
      r.value.actions[id] == Review(s.actions[id], quarter.value, isApproved, percentage, reason).value
    ensures r.Ok? ==> ProgressConsistent(r.value.actions[id])
  {
    if !QuarterOk(quarter) then Err(BadRequest, InvalidQuarter)
    else if id !in s.actions then Err(NotFound, ActionNotFound)
    else
      var a :- Review(s.actions[id], quarter.value, isApproved, percentage, reason);
      Ok(s.(actions := s.actions[id := a]))
  }

  /** The approval of quarter q < 4 always leaves quarter q + 1 sendable,
      so the process owner can go on to the next quarter. */
  lemma ApproveOpensNextQuarter(s: Store, id: int, q: int, percentage: Option<real>, reason: string)
    requires 1 <= q < 4 && id in s.actions
    ensures var r := ReviewQuarter(s, id, Some(q), true, percentage, reason);
      && r.Ok?
      && r.value.actions[id].At(q).status == Approved
      && Sendable(r.value.actions[id].At(q + 1).status)
      && SendQuarter(r.value, id, Some(q + 1)).Ok?
  {
  }

  /** One row of the pending list: the action, the joined goal
      description, process name and creator name, and its evidences. */
  datatype PendingRow = PendingRow(
    action: Action,
    goalDescription: string,
    processName: string,
    createdByName: string,
    evidences: map<int, Evidence>)

  predicate HasSubmitted(a: Action) {
    a.At(1).status == Submitted || a.At(2).status == Submitted
    || a.At(3).status == Submitted || a.At(4).status == Submitted
  }

  /** The inner joins of the pending query find the goal, its process and
      the creating user. */
  predicate Joins(s: Store, a: Action) {
    a.goalId in s.goals && s.goals[a.goalId].processId in s.processes && a.createdBy in s.users
  }

  /** GET /actions/pending. The list order (creation time) is not
      modelled; rows are keyed by action id. */
  function PendingActions(s: Store): (r: map<int, PendingRow>)
    ensures forall id :: id in r <==>
      id in s.actions && Joins(s, s.actions[id])
      && exists q :: ValidQuarter(q) && s.actions[id].At(q).status == Submitted
    ensures forall id :: id in r ==> r[id].action == s.actions[id]
    ensures forall id, e :: id in r ==>
      (e in r[id].evidences <==> e in s.evidences && s.evidences[e].actionId == id)
    ensures forall id, e :: id in r && e in r[id].evidences ==> r[id].evidences[e] == s.evidences[e]
  {
    map id | id in s.actions && HasSubmitted(s.actions[id]) && Joins(s, s.actions[id]) ::
      var a := s.actions[id];
      var g := s.goals[a.goalId];
      PendingRow(a, g.description, s.processes[g.processId].name, s.users[a.createdBy].name,
                 EvidencesOf(s.evidences, id))
  }

  /** In a well-formed store every join succeeds, so the pending list is
      exactly the actions with a Submitted quarter. */
  lemma PendingExactlySubmitted(s: Store)
    requires Wellformed(s)
    ensures forall id :: id in PendingActions(s) <==>
      id in s.actions && exists q :: ValidQuarter(q) && s.actions[id].At(q).status == Submitted
  {
  }

  /** DELETE /actions/:id. The evidences are deleted before the action is
      looked for, so they go even when the answer is 404. */
  function DeleteAction(s: Store, id: int): (r: (Store, Result<string>))
    ensures r.0.(actions := s.actions, evidences := s.evidences) == s
    ensures r.0.actions.Keys == s.actions.Keys - {id}
    ensures forall a :: a in r.0.actions ==> r.0.actions[a] == s.actions[a]
    ensures forall e :: e in r.0.evidences <==> e in s.evidences && s.evidences[e].actionId != id
    ensures forall e :: e in r.0.evidences ==> r.0.evidences[e] == s.evidences[e]
    ensures r.1.Ok? <==> id in s.actions
    ensures r.1.Err? ==> r.1 == Err(NotFound, ActionNotFound)
  {
    var evidences := map e | e in s.evidences && s.evidences[e].actionId != id :: s.evidences[e];
    var t := s.(actions := s.actions - {id}, evidences := evidences);
    (t, if id in s.actions then Ok(ActionDeleted) else Err(NotFound, ActionNotFound))
  }

  /** Deleting an action keeps the store well-formed, and deleting an
      unknown action from a well-formed store changes nothing. */
  lemma DeleteActionWellformed(s: Store, id: int)
    requires Wellformed(s)
    ensures Wellformed(DeleteAction(s, id).0)
    ensures id !in s.actions ==> DeleteAction(s, id).0 == s
  {
    var t := DeleteAction(s, id).0;
    if id !in s.actions {
      assert forall e :: e in s.evidences ==> s.evidences[e].actionId != id;
      assert t.evidences == s.evidences;
      assert t.actions == s.actions;
    }
  }
}

=== FILE: action_item.dfy ===
/** The summary row of an action in the process owner's list: the label of
    its most advanced open quarter. */
module ActionItem {
  import opened Wrappers
  import opened Quarters
  import QuarterModule

  const Gray := "#6B7280"

  /** getStatusDetails of the summary row; the Submitted label is shorter
      than the quarter panel's. */
  function StatusDetails(status: int): (t: QuarterModule.StatusTag)
    ensures !(Draft <= status <= Locked) <==> t.text == "N/A"
    ensures status != Submitted ==> t == QuarterModule.StatusDetails(status)
    ensures status == Submitted ==> t == QuarterModule.StatusTag("Enviado", QuarterModule.StatusDetails(status).color)
    ensures status == Submitted ==> t.text != QuarterModule.StatusDetails(status).text
  {
    if status == Draft then QuarterModule.StatusTag("Borrador", Gray)
    else if status == Submitted then QuarterModule.StatusTag("Enviado", "#EAB308")
    else if status == Approved then QuarterModule.StatusTag("Aprobado", "#28a745")
    else if status == Rejected then QuarterModule.StatusTag("Rechazado", "#dc3545")
    else if status == Locked then QuarterModule.StatusTag("Bloqueado", "#374151")
    else QuarterModule.StatusTag("N/A", Gray)
  }

  /** The quarter getOverallStatus reports: the highest of 4, 3, 2 whose
      status is not Locked, and 1 when all three are Locked. */
  function OverallQuarter(a: Action): (q: int)
    ensures ValidQuarter(q)
    ensures forall k :: q < k <= 4 ==> a.At(k).status == Locked
    ensures q > 1 ==> a.At(q).status != Locked
  {
    if a.t4.status != Locked then 4
    else if a.t3.status != Locked then 3
    else if a.t2.status != Locked then 2
    else 1
  }

  /** getOverallStatus: the reported quarter with its status tag. */
  function OverallStatus(a: Action): (r: (QuarterModule.StatusTag, int))
    ensures r.1 == OverallQuarter(a)
    ensures r.0 == StatusDetails(a.At(r.1).status)
  {
    var q := OverallQuarter(a);
    (StatusDetails(a.At(q).status), q)
  }

  /** The reported quarter is the only one satisfying the two ensures of
      OverallQuarter: any quarter k with every later quarter Locked and
      itself open (or k = 1) is it. */
  lemma OverallQuarterUnique(a: Action, k: int)
    requires ValidQuarter(k)
    requires forall j :: k < j <= 4 ==> a.At(j).status == Locked
    requires k > 1 ==> a.At(k).status != Locked
    ensures OverallQuarter(a) == k
  {
  }

  /** Quarter 1 is reported whatever its own status when 2..4 are Locked. */
  lemma FirstQuarterFallback(a: Action)
    requires a.t2.status == Locked && a.t3.status == Locked && a.t4.status == Locked
    ensures OverallStatus(a) == (StatusDetails(a.t1.status), 1)
  {
  }

  /** Approving quarter q < 4 opens q + 1, so the summary moves to q + 1 or
      further. */
  lemma ApprovalAdvancesSummary(a: Action, q: int, percentage: Option<real>, reason: string)
    requires 1 <= q < 4
    ensures OverallQuarter(Review(a, q, true, percentage, reason).value) >= q + 1
  {
    var b := Review(a, q, true, percentage, reason).value;
    assert b.At(q + 1).status == Draft;
  }
}

=== FILE: admin_review.dfy ===
/** The administrator's review form for one submitted quarter: the
    percentage input and the guards in front of the review request. */
module AdminReview {
  import opened Wrappers
  import opened Text
  import opened Quarters
  import opened Store
  import ActionController

  /** handlePercentageChange: the parsed input (None when it is not a
      number) brought into [0, 100]. */
  function Clamp(v: Option<real>): (p: real)
    ensures PercentInRange(p)
    ensures v.Some? && PercentInRange(v.value) ==> p == v.value
    ensures v.None? ==> p == 0.0
    ensures v.Some? && v.value < 0.0 ==> p == 0.0
    ensures v.Some? && v.value > 100.0 ==> p == 100.0
  {
    if v.None? then 0.0
    else if v.value < 0.0 then 0.0
    else if v.value > 100.0 then 100.0
    else v.value
  }

  /** Clamping a clamped value changes nothing. */
  lemma ClampIdempotent(v: Option<real>)
    ensures Clamp(Some(Clamp(v))) == Clamp(v)
  {
  }

  /** The body of POST /actions/:id/review. */
  datatype ReviewRequest = ReviewRequest(quarter: int, isApproved: bool, percentage: real, reason: string)

  const ReasonRequiredUi := "Debes escribir una razón para rechazar el trimestre."
  const PercentOutOfRange := "El valor debe estar entre 0 y 100."

  /** handleSubmit: a rejection needs a reason with some non-whitespace
      character, an approval a percentage in [0, 100]; then the user
      confirms and the request carries the four fields. */
  function Submit(quarter: int, isApproved: bool, percentage: real, reason: string, confirmed: bool)
    : (o: Outcome<ReviewRequest>)
    ensures !isApproved && Trim(reason) == "" ==> o == Refused(ReasonRequiredUi)
    ensures isApproved && !PercentInRange(percentage) ==> o == Refused(PercentOutOfRange)
    ensures o.Proceed? <==> confirmed && (if isApproved then PercentInRange(percentage) else Trim(reason) != "")
    ensures o.Proceed? ==> o.request == ReviewRequest(quarter, isApproved, percentage, reason)
  {
    if !isApproved && (reason == "" || Trim(reason) == "") then Refused(ReasonRequiredUi)
    else if isApproved && (percentage < 0.0 || percentage > 100.0) then Refused(PercentOutOfRange)
    else if !confirmed then Cancelled
    else Proceed(ReviewRequest(quarter, isApproved, percentage, reason))
  }

  /** The percentage state starts at 0 and only ever holds clamped values,
      so the range guard never refuses an approval. */
  lemma RangeGuardNeverFires(quarter: int, input: Option<real>, reason: string, confirmed: bool)
    ensures Submit(quarter, true, 0.0, reason, confirmed) != Refused(PercentOutOfRange)
    ensures Submit(quarter, true, Clamp(input), reason, confirmed) != Refused(PercentOutOfRange)
  {
  }

  /** The form's reason check is stricter than the server's: a request it
      lets through is never refused by the server for its reason, while a
      whitespace-only reason that the server would accept is refused here. */
  lemma FormStricterThanServer(s: Store, id: int, q: int, isApproved: bool, percentage: real,
                               reason: string, confirmed: bool)
    requires ValidQuarter(q) && id in s.actions
    ensures Submit(q, isApproved, percentage, reason, confirmed).Proceed? ==>
      ActionController.ReviewQuarter(s, id, Some(q), isApproved, Some(percentage), reason).Ok?
    ensures Submit(q, false, percentage, " ", confirmed) == Refused(ReasonRequiredUi)
    ensures ActionController.ReviewQuarter(s, id, Some(q), false, Some(percentage), " ").Ok?
  {
    assert Trim(" ") == "" by {
      TrimEmptyIffAllSpace(" ");
      assert IsSpace(' ');
    }
  }

  /** An approval sent through the form keeps every percentage of an action
      in [0, 100], and with it the recomputed progress. */
  lemma FormKeepsPercentsInRange(s: Store, id: int, q: int, percentage: real, reason: string)
    requires ValidQuarter(q) && id in s.actions && AllPercentsInRange(s.actions[id])
    requires Submit(q, true, percentage, reason, true).Proceed?
    ensures var r := ActionController.ReviewQuarter(s, id, Some(q), true, Some(percentage), reason);
      && r.Ok? && AllPercentsInRange(r.value.actions[id])
      && PercentInRange(r.value.actions[id].progress.value)
  {
    ReviewKeepsRange(s.actions[id], q, true, Some(percentage), reason);
  }
}

=== FILE: auth_controller.dfy ===
/** Login, account activation with the one-time code, and password change.
    bcrypt's compare is an oracle `matches(password, hash)`, a hash bcrypt
    produced is an input, and token signing is an oracle `sign`. The
    email lookup takes "the first row" of a query whose order is not
    defined, modelled as a choice among the matching accounts; with
    unique emails (UserController.EmailsUnique) there is only one. */
module AuthController {
  import opened Wrappers
  import opened Text
  import opened Store
  import opened AuthMiddleware
  import opened UserController

  const InvalidCredentials := "Credenciales inválidas"
  const PendingActivation := "Cuenta inactiva. Usa el código de activación para ingresar por primera vez."
  const AccountDisabled := "Acceso denegado. Su cuenta ha sido deshabilitada."
  const NotActivated := "Cuenta no activada. Usa la opción de Activar Cuenta."
  const InvalidActivation := "Código de activación inválido o correo incorrecto."
  const WrongCurrentPassword := "La contraseña actual es incorrecta."
  const ChangePasswordFailed := "Error al cambiar contraseña."

  /** The reply of a successful login. */
  datatype Session = Session(token: string, role: int)

  /** The account a `WHERE email = $1` lookup returns first, if any. */
  ghost function AccountWithEmail(users: map<int, User>, email: string): (r: Option<int>)
    ensures r.None? <==> !EmailRegistered(users, email)
    ensures r.Some? ==> r.value in users && users[r.value].email == email
  {
    if EmailRegistered(users, email) then
      var id :| id in users && users[id].email == email; Some(id)
    else None
  }

  /** With unique emails the lookup finds the one account with that email. */
  lemma AccountWithEmailUnique(users: map<int, User>, id: int)
    requires EmailsUnique(users) && id in users
    ensures AccountWithEmail(users, users[id].email) == Some(id)
  {
  }

  /** POST /auth/login. The checks run in this order: known email, enabled
      account (403, the message telling a pending activation from a
      disabled account), a stored hash, the password. */
  ghost function Login(s: Store, email: string, password: string,
                       matches: (string, string) -> bool, sign: Principal -> string): (r: Result<Session>)
    ensures !EmailRegistered(s.users, email) ==> r == Err(BadRequest, InvalidCredentials)
    ensures r.Ok? ==> var id := AccountWithEmail(s.users, email).value; var u := s.users[id];
      && u.active && Truthy(u.passwordHash) && matches(password, u.passwordHash.value)
      && r.value == Session(sign(Principal(id, u.roleId, u.name)), u.roleId)
    ensures r.Err? ==> r.code == BadRequest || r.code == Forbidden
  {
    var found := AccountWithEmail(s.users, email);
    if found.None? then Err(BadRequest, InvalidCredentials)
    else
      var u := s.users[found.value];
      if !u.active then
        if Truthy(u.token) then Err(Forbidden, PendingActivation) else Err(Forbidden, AccountDisabled)
      else if !Truthy(u.passwordHash) then Err(BadRequest, NotActivated)
      else if !matches(password, u.passwordHash.value) then Err(BadRequest, InvalidCredentials)
      else
        var p := Principal(found.value, u.roleId, u.name);
        Ok(Session(sign(p), u.roleId))
  }

  /** A disabled account is refused with 403 before any password check:
      the answer does not depend on the password or on bcrypt. */
  lemma InactiveRefusedWhateverPassword(s: Store, id: int, password: string, other: string,
                                        matches: (string, string) -> bool, matches2: (string, string) -> bool,
                                        sign: Principal -> string)
    requires EmailsUnique(s.users) && id in s.users && !s.users[id].active
    ensures var r := Login(s, s.users[id].email, password, matches, sign);
      && r == Login(s, s.users[id].email, other, matches2, sign)
      && r.Err? && r.code == Forbidden
      && (r.message == PendingActivation <==> Truthy(s.users[id].token))
  {
    AccountWithEmailUnique(s.users, id);
  }

  /** A wrong password and an unknown email get the same answer. */
  lemma WrongPasswordLooksLikeUnknownEmail(s: Store, id: int, password: string,
                                           matches: (string, string) -> bool, sign: Principal -> string,
                                           unknown: string)
    requires EmailsUnique(s.users) && id in s.users
    requires s.users[id].active && Truthy(s.users[id].passwordHash)
    requires !matches(password, s.users[id].passwordHash.value)
    requires !EmailRegistered(s.users, unknown)
    ensures Login(s, s.users[id].email, password, matches, sign) == Login(s, unknown, password, matches, sign)
  {
    AccountWithEmailUnique(s.users, id);
  }

  /** With unique emails, login succeeds exactly for an enabled account with
      a stored hash that the password matches, and the token names that
      account with its role. */
  lemma LoginSucceedsIff(s: Store, id: int, password: string,
                         matches: (string, string) -> bool, sign: Principal -> string)
    requires EmailsUnique(s.users) && id in s.users
    ensures var u := s.users[id]; var r := Login(s, u.email, password, matches, sign);
      && (r.Ok? <==> u.active && Truthy(u.passwordHash) && matches(password, u.passwordHash.value))
      && (r.Ok? ==> r.value == Session(sign(Principal(id, u.roleId, u.name)), u.roleId))
      && (u.active && !Truthy(u.passwordHash) ==> r == Err(BadRequest, NotActivated))
      && (u.active && Truthy(u.passwordHash) && !r.Ok? ==> r == Err(BadRequest, InvalidCredentials))
  {
    AccountWithEmailUnique(s.users, id);
  }

  /** The key the activation lookup uses: the upper-cased code, or "" for
      a missing or empty code. */
  function ActivationKey(code: Option<string>): (key: string)
    ensures Truthy(code) ==> |key| == |code.value|
    ensures !Truthy(code) ==> key == ""
    ensures forall i :: 0 <= i < |key| ==> !IsAsciiLower(key[i])
  {
    if Truthy(code) then Upper(code.value) else ""
  }

  /** An account the activation request designates. */
  predicate Designated(users: map<int, User>, id: int, email: string, key: string) {
    id in users && users[id].email == email && users[id].token == Some(key)
  }

  /** POST /auth/activate. The account with this email and this pending
      code gets the new password hash, is enabled and loses its code. */
  ghost function Activate(s: Store, email: string, code: Option<string>, newHash: string): (r: Result<Store>)
    ensures r.Err? <==> !exists id :: Designated(s.users, id, email, ActivationKey(code))
    ensures r.Err? ==> r == Err(BadRequest, InvalidActivation)
    ensures r.Ok? ==> exists id :: (
      && Designated(s.users, id, email, ActivationKey(code))
      && OnlyUserChanged(s, r.value, id)
      && r.value.users[id] == s.users[id].(passwordHash := Some(newHash), active := true, token := None))
  {
    var key := ActivationKey(code);
    if !exists id :: Designated(s.users, id, email, key) then Err(BadRequest, InvalidActivation)
    else
      var id :| Designated(s.users, id, email, key);
      Ok(s.(users := s.users[id := s.users[id].(passwordHash := Some(newHash), active := true, token := None)]))
  }

  /** Activation changes no email, so it keeps emails unique. */
  lemma ActivateKeepsEmailsUnique(s: Store, email: string, code: Option<string>, newHash: string)
    requires EmailsUnique(s.users) && Activate(s, email, code, newHash).Ok?
    ensures EmailsUnique(Activate(s, email, code, newHash).value.users)
  {
    var t := Activate(s, email, code, newHash).value;
    forall a, b | a in t.users && b in t.users && t.users[a].email == t.users[b].email
      ensures a == b
    {
      assert t.users[a].email == s.users[a].email;
      assert t.users[b].email == s.users[b].email;
    }
  }

  /** A code works once: after a successful activation, no activation for
      the same email succeeds again, whatever code is given. */
  lemma ActivationIsSingleUse(s: Store, email: string, code: Option<string>, newHash: string,
                              code2: Option<string>, newHash2: string)
    requires EmailsUnique(s.users) && Activate(s, email, code, newHash).Ok?
    ensures Activate(Activate(s, email, code, newHash).value, email, code2, newHash2).Err?
  {
    var t := Activate(s, email, code, newHash).value;
    var id :| Designated(s.users, id, email, ActivationKey(code))
      && OnlyUserChanged(s, t, id)
      && t.users[id] == s.users[id].(passwordHash := Some(newHash), active := true, token := None);
    forall j | j in t.users && t.users[j].email == email
      ensures t.users[j].token.None?
    {
      assert s.users[j].email == email;
    }
  }

  /** The code is matched without regard to letter case. */
  lemma ActivationIgnoresCase(s: Store, email: string, code: string, newHash: string)
    ensures Activate(s, email, Some(Lower(code)), newHash) == Activate(s, email, Some(code), newHash)
  {
    assert ActivationKey(Some(Lower(code))) == ActivationKey(Some(code));
  }

  /** The account lifecycle: a new account cannot log in until it is
      activated with the code returned at its creation; after activation,
      a password that matches the new hash logs in with the chosen role. */
  lemma CreateActivateLogin(s: Store, name: string, email: string, roleId: int, freshId: int,
                            bytes: seq<Byte>, password: string, newHash: string,
                            matches: (string, string) -> bool, sign: Principal -> string)
    requires freshId !in s.users && |bytes| == 3 && EmailsUnique(s.users)
    requires name != "" && email != "" && roleId != 0 && !EmailRegistered(s.users, email)
    requires newHash != "" && matches(password, newHash)
    ensures var c := CreateUser(s, Some(name), Some(email), Some(roleId), freshId, bytes);
      && c.Ok?
      && Login(c.value.0, email, password, matches, sign) == Err(Forbidden, PendingActivation)
      && Activate(c.value.0, email, Some(c.value.1), newHash).Ok?
      && Login(Activate(c.value.0, email, Some(c.value.1), newHash).value, email, password, matches, sign)
         == Ok(Session(sign(Principal(freshId, roleId, name)), roleId))
  {
    var c := CreateUser(s, Some(name), Some(email), Some(roleId), freshId, bytes);
    CreateUserKeepsEmailsUnique(s, Some(name), Some(email), Some(roleId), freshId, bytes);
    var t := c.value.0;
    AccountWithEmailUnique(t.users, freshId);
    assert ActivationKey(Some(c.value.1)) == c.value.1;
    assert Designated(t.users, freshId, email, c.value.1);
    ActivateKeepsEmailsUnique(t, email, Some(c.value.1), newHash);
    var a := Activate(t, email, Some(c.value.1), newHash).value;
    var id :| Designated(t.users, id, email, c.value.1) && OnlyUserChanged(t, a, id)
      && a.users[id] == t.users[id].(passwordHash := Some(newHash), active := true, token := None);
    assert id == freshId;
    AccountWithEmailUnique(a.users, freshId);
  }

  /** After a reset the account is refused with the pending-activation
      message, whatever its password. */
  lemma ResetBlocksLogin(s: Store, id: int, bytes: seq<Byte>, password: string,
                         matches: (string, string) -> bool, sign: Principal -> string)
    requires |bytes| == 3 && EmailsUnique(s.users) && id in s.users
    ensures var t := ResetUserAccess(s, id, bytes).value.0;
      Login(t, s.users[id].email, password, matches, sign) == Err(Forbidden, PendingActivation)
  {
    ResetKeepsEmailsUnique(s, id, bytes);
    var t := ResetUserAccess(s, id, bytes).value.0;
    AccountWithEmailUnique(t.users, id);
  }

  /** PUT /auth/change-password for the authenticated user. Reading the
      hash of a missing account, or comparing with a null hash, throws and
      answers 500; a current password that does not match answers 400. */
  function ChangePassword(s: Store, userId: int, current: string, newHash: string,
                          matches: (string, string) -> bool): (r: Result<Store>)
    ensures r.Ok? <==> userId in s.users && s.users[userId].passwordHash.Some?
                       && matches(current, s.users[userId].passwordHash.value)
    ensures r.Err? && r.code != InternalError ==> r == Err(BadRequest, WrongCurrentPassword)
    ensures r.Err? && (userId !in s.users || s.users[userId].passwordHash.None?) ==>
      r == Err(InternalError, ChangePasswordFailed)
    ensures r.Ok? ==> OnlyUserChanged(s, r.value, userId)
    ensures r.Ok? ==> r.value.users[userId] == s.users[userId].(passwordHash := Some(newHash))
  {
    if userId !in s.users || s.users[userId].passwordHash.None? then Err(InternalError, ChangePasswordFailed)
    else if !matches(current, s.users[userId].passwordHash.value) then Err(BadRequest, WrongCurrentPassword)
    else Ok(s.(users := s.users[userId := s.users[userId].(passwordHash := Some(newHash))]))
  }

  /** After a password change the new password logs in and a password that
      only matched the old hash no longer does. */
  lemma ChangePasswordThenLogin(s: Store, id: int, current: string, newPassword: string, newHash: string,
                                matches: (string, string) -> bool, sign: Principal -> string)
    requires EmailsUnique(s.users) && id in s.users && s.users[id].active
    requires ChangePassword(s, id, current, newHash, matches).Ok?
    requires newHash != "" && matches(newPassword, newHash) && !matches(current, newHash)
    ensures var t := ChangePassword(s, id, current, newHash, matches).value;
      && Login(t, s.users[id].email, newPassword, matches, sign).Ok?
      && Login(t, s.users[id].email, current, matches, sign) == Err(BadRequest, InvalidCredentials)
  {
    var t := ChangePassword(s, id, current, newHash, matches).value;
    assert EmailsUnique(t.users) by {
      forall a, b | a in t.users && b in t.users && t.users[a].email == t.users[b].email
        ensures a == b
      {
        assert t.users[a].email == s.users[a].email;
        assert t.users[b].email == s.users[b].email;
      }
    }
    AccountWithEmailUnique(t.users, id);
  }
}

=== FILE: auth_middleware.dfy ===
/** The request guards: bearer-token extraction and verification, and the
    per-route role gate. Token verification (a JSON Web Token check with
    the server's secret) is an oracle parameter. */
module AuthMiddleware {
  import opened Wrappers
  import opened Text

  const TokenMissing := "Acceso Denegado. Token no proporcionado."
  const TokenMalformed := "Formato de token inválido."
  const TokenInvalid := "Token inválido."
  const RoleForbidden := "Acceso Prohibido. No tienes los permisos necesarios"

  /** The `user` claim a login token carries. */
  datatype Principal = Principal(id: int, role: int, name: string)

  /** A verified token's payload; its `user` claim may be absent. */
  datatype Payload = Payload(user: Option<Principal>)

  /** `header.split(' ')[1]` when it is a non-empty string. */
  function BearerToken(header: string): (t: Option<string>)
    ensures t.Some? ==> t.value != "" && NoSep(t.value, ' ')
  {
    var parts := Split(header, ' ');
    JoinSplit(header, ' ');
    if |parts| >= 2 && parts[1] != "" then Some(parts[1]) else None
  }

  /** A header made of a scheme word, one space and a token without spaces
      yields exactly that token. */
  lemma BearerRoundTrip(scheme: string, token: string)
    requires NoSep(scheme, ' ') && NoSep(token, ' ') && token != ""
    ensures BearerToken(scheme + " " + token) == Some(token)
  {
    SplitFirst(scheme, token, ' ');
    SplitNoSep(token, ' ');
    assert scheme + " " + token == scheme + [' '] + token;
  }

  /** A header without any space carries no token. */
  lemma NoSpaceNoToken(header: string)
    requires NoSep(header, ' ')
    ensures BearerToken(header).None?
  {
    SplitNoSep(header, ' ');
  }

  /** authMiddleware: on success the request goes on with `req.user` set to
      the payload's `user` claim. */
  function Authenticate(header: Option<string>, verify: string -> Option<Payload>)
    : (r: Result<Option<Principal>>)
    ensures header.None? || header == Some("") ==> r == Err(Unauthorized, TokenMissing)
    ensures header.Some? && header.value != "" && BearerToken(header.value).None? ==>
      r == Err(Unauthorized, TokenMalformed)
    ensures r.Ok? <==> header.Some? && BearerToken(header.value).Some?
                       && verify(BearerToken(header.value).value).Some?
    ensures r.Ok? ==> r.value == verify(BearerToken(header.value).value).value.user
    ensures r.Err? && r.code != Unauthorized ==> r == Err(BadRequest, TokenInvalid)
  {
    if header.None? || header.value == "" then Err(Unauthorized, TokenMissing)
    else
      var token := BearerToken(header.value);
      if token.None? then Err(Unauthorized, TokenMalformed)
      else
        var decoded := verify(token.value);
        if decoded.None? then Err(BadRequest, TokenInvalid)
        else Ok(decoded.value.user)
  }

  /** checkRole(allowed): passes the request on exactly when it carries a
      user whose role equals `allowed`. */
  function CheckRole(user: Option<Principal>, allowed: int): (r: Result<Principal>)
    ensures r.Ok? <==> user.Some? && user.value.role == allowed
    ensures r.Ok? ==> r.value == user.value
    ensures r.Err? ==> r == Err(Forbidden, RoleForbidden)
  {
    if user.None? || user.value.role != allowed then Err(Forbidden, RoleForbidden)
    else Ok(user.value)
  }

  /** A token issued for `p`, sent as "Bearer <token>", authenticates as
      `p` and passes the gate of p's role and no other. */
  lemma IssuedTokenPasses(p: Principal, token: string, verify: string -> Option<Payload>, allowed: int)
    requires NoSep(token, ' ') && token != ""
    requires verify(token) == Some(Payload(Some(p)))
    ensures Authenticate(Some("Bearer " + token), verify) == Ok(Some(p))
    ensures CheckRole(Some(p), allowed).Ok? <==> p.role == allowed
  {
    BearerRoundTrip("Bearer", token);
    assert "Bearer" + " " + token == "Bearer " + token;
  }
}

=== FILE: dashboard_dates.dfy ===
/** Inline editing of a goal's start and end dates on the process
    owner's dashboard. Dates are ISO strings compared as strings. Today's
    date and the "three months later" day (computed with the browser's
    date arithmetic) are inputs. */
module DashboardDates {
  import opened Wrappers
  import opened Text
  import opened Store
  import opened Ordering
  import GoalController

  datatype DateKind = StartDate | EndDate

  /** The open editor: the goal, the date being edited and the input's
      text. */
  datatype Editor = Editor(goalId: int, kind: DateKind, temp: string)

  const StartFirst := "Debes definir primero la Fecha de Inicio."
  const EndBeforeStart := "La fecha de cierre no puede ser antes que la de inicio."
  const EndTooLate := "La fecha excede el límite de 1 trimestre (3 meses)."

  /** startEditingDate: the end date cannot be edited before a start date
      exists; the input starts with the date part (first ten characters)
      of the current value, or empty. */
  function StartEditing(goalId: int, current: Option<string>, kind: DateKind, currentStart: Option<string>)
    : (o: Outcome<Editor>)
    ensures o == Refused(StartFirst) <==> kind == EndDate && !Truthy(currentStart)
    ensures o.Refused? || o.Proceed?
    ensures o.Proceed? ==> o.request.goalId == goalId && o.request.kind == kind
    ensures o.Proceed? ==> |o.request.temp| <= 10 && o.request.temp <= current.GetOr("")
    ensures o.Proceed? && Truthy(current) && |current.value| >= 10 ==> |o.request.temp| == 10
    ensures o.Proceed? && !Truthy(current) ==> o.request.temp == ""
  {
    if kind == EndDate && !Truthy(currentStart) then Refused(StartFirst)
    else Proceed(Editor(goalId, kind, if Truthy(current) then Prefix(current.value, 10) else ""))
  }

  /** Opening the editor on a stored date and saving it unchanged sends
      that date's calendar day (its first ten characters) for the same
      field: a start is always sent, an end whenever it passes the two
      checks. */
  lemma ReopenAndSaveUnchanged(goalId: int, current: string, kind: DateKind, currentStart: Option<string>,
                               today: string, threeMonthsAfter: string -> string)
    requires current != "" && (kind == EndDate ==> Truthy(currentStart))
    ensures var o := StartEditing(goalId, Some(current), kind, currentStart);
      && o.Proceed? && o.request.temp == Prefix(current, 10)
      && var r := SaveDate(o.request, currentStart, today, threeMonthsAfter);
      && r != Close
      && (r.Put? ==> r.body == DatePayload(kind, Prefix(current, 10)))
      && (kind == StartDate ==> r.Put?)
      && ((kind == EndDate && !Before(Prefix(current, 10), StartDay(currentStart))
           && !LexLess(MaxEndDate(currentStart, threeMonthsAfter), Prefix(current, 10))) ==> r.Put?)
  {
  }

  /** The body of PUT /goals/:id the editor sends: one date field. */
  datatype DatePayload = DatePayload(kind: DateKind, value: string)

  /** What saving the editor does. */
  datatype Save =
    | Close                                 // nothing typed: nothing saved
    | Reject(message: string)               // refused before any request
    | Put(body: DatePayload, warned: bool)  // the request; `warned` when a past start was only warned about

  /** getMaxEndDate: "" without a start date, otherwise the day three
      months after it. */
  function MaxEndDate(start: Option<string>, threeMonthsAfter: string -> string): (m: string)
    ensures !Truthy(start) ==> m == ""
  {
    if Truthy(start) then threeMonthsAfter(start.value) else ""
  }

  /** `tempDate < currentStartDate` in JavaScript: false when the start is
      absent, string order otherwise. */
  predicate Before(temp: string, start: Option<string>) {
    start.Some? && LexLess(temp, start.value)
  }

  /** saveDate as written: the end date is compared with the start value
      exactly as it came from the server. */
  function SaveDateAsWritten(e: Editor, currentStart: Option<string>, today: string,
                             threeMonthsAfter: string -> string): (r: Save)
    ensures e.temp == "" <==> r == Close
    ensures r.Put? ==> r.body == DatePayload(e.kind, e.temp)
    ensures e.kind == StartDate && e.temp != "" ==> r == Put(DatePayload(StartDate, e.temp), LexLess(e.temp, today))
    ensures r.Reject? ==> e.kind == EndDate
    ensures e.kind == EndDate && r.Put? ==>
      && !Before(e.temp, currentStart)
      && !LexLess(MaxEndDate(currentStart, threeMonthsAfter), e.temp)
      && !r.warned
    ensures e.kind == EndDate && e.temp != "" && Before(e.temp, currentStart) ==> r == Reject(EndBeforeStart)
    ensures (e.kind == EndDate && e.temp != "" && !Before(e.temp, currentStart)
             && LexLess(MaxEndDate(currentStart, threeMonthsAfter), e.temp)) ==> r == Reject(EndTooLate)
  {
    if e.temp == "" then Close
    else if e.kind == EndDate && Before(e.temp, currentStart) then Reject(EndBeforeStart)
    else if e.kind == EndDate && LexLess(MaxEndDate(currentStart, threeMonthsAfter), e.temp) then Reject(EndTooLate)
    else Put(DatePayload(e.kind, e.temp), e.kind == StartDate && LexLess(e.temp, today))
  }

  /** The start date's calendar day: the first ten characters, as the
      editor, the date picker's lower bound and the display use. */
  function StartDay(start: Option<string>): (d: Option<string>)
    ensures d.Some? <==> start.Some?
    ensures d.Some? ==> |d.value| <= 10 && d.value <= start.value
  {
    if start.Some? then Some(Prefix(start.value, 10)) else None
  }

  /** saveDate with the end date compared with the start's calendar day.
      A start date is never refused, only warned about when it is before
      today; an end date must be neither before the start day nor after
      the three-month limit. */
  function SaveDate(e: Editor, currentStart: Option<string>, today: string,
                    threeMonthsAfter: string -> string): (r: Save)
    ensures e.temp == "" <==> r == Close
    ensures r.Put? ==> r.body == DatePayload(e.kind, e.temp)
    ensures e.kind == StartDate && e.temp != "" ==> r == Put(DatePayload(StartDate, e.temp), LexLess(e.temp, today))
    ensures r.Reject? ==> e.kind == EndDate
    ensures e.kind == EndDate && r.Put? ==>
      && !Before(e.temp, StartDay(currentStart))
      && !LexLess(MaxEndDate(currentStart, threeMonthsAfter), e.temp)
      && !r.warned
    ensures e.kind == EndDate && e.temp != "" && Before(e.temp, StartDay(currentStart)) ==> r == Reject(EndBeforeStart)
    ensures (e.kind == EndDate && e.temp != "" && !Before(e.temp, StartDay(currentStart))
             && LexLess(MaxEndDate(currentStart, threeMonthsAfter), e.temp)) ==> r == Reject(EndTooLate)
  {
    if e.temp == "" then Close
    else if e.kind == EndDate && Before(e.temp, StartDay(currentStart)) then Reject(EndBeforeStart)
    else if e.kind == EndDate && LexLess(MaxEndDate(currentStart, threeMonthsAfter), e.temp) then Reject(EndTooLate)
    else Put(DatePayload(e.kind, e.temp), e.kind == StartDate && LexLess(e.temp, today))
  }

  /** Corrected: an end date on the start's own day is never refused as
      being before the start. */
  lemma SameDayEndNotBeforeStart(goalId: int, start: string, today: string, threeMonthsAfter: string -> string)
    requires |start| >= 10
    ensures SaveDate(Editor(goalId, EndDate, start[..10]), Some(start), today, threeMonthsAfter) != Reject(EndBeforeStart)
  {
    assert Prefix(start, 10) == start[..10];
    LexLessIrreflexive(start[..10]);
  }

  /** As written: when the stored start carries more than the date (the
      server's dates arrive as full timestamps), an end date on the start's
      own day, the earliest day the picker offers, is refused as being
      before the start. */
  lemma SameDayEndRefusedAsWritten(goalId: int, start: string, today: string, threeMonthsAfter: string -> string)
    requires |start| > 10
    ensures SaveDateAsWritten(Editor(goalId, EndDate, start[..10]), Some(start), today, threeMonthsAfter)
         == Reject(EndBeforeStart)
  {
    LexLessPrefix(start[..10], start[10..]);
    assert start[..10] + start[10..] == start;
  }

  /** The concrete case: a start stored as 2025-01-15 reaches the page as
      "2025-01-15T05:00:00.000Z", and the end date 2025-01-15 is refused. */
  lemma TimestampStartExample(threeMonthsAfter: string -> string)
    ensures SaveDateAsWritten(Editor(7, EndDate, "2025-01-15"), Some("2025-01-15T05:00:00.000Z"),
                              "2025-01-01", threeMonthsAfter) == Reject(EndBeforeStart)
    ensures SaveDate(Editor(7, EndDate, "2025-01-15"), Some("2025-01-15T05:00:00.000Z"),
                     "2025-01-01", threeMonthsAfter) != Reject(EndBeforeStart)
  {
    var start := "2025-01-15T05:00:00.000Z";
    assert |start| == 24;
    assert start[..10] == "2025-01-15";
    SameDayEndRefusedAsWritten(7, start, "2025-01-01", threeMonthsAfter);
    SameDayEndNotBeforeStart(7, start, "2025-01-01", threeMonthsAfter);
  }

  /** When the start is a bare date (as after a local save), the two
      versions agree. */
  lemma AgreeOnBareDates(e: Editor, start: Option<string>, today: string, threeMonthsAfter: string -> string)
    requires start.Some? ==> |start.value| <= 10
    ensures SaveDate(e, start, today, threeMonthsAfter) == SaveDateAsWritten(e, start, today, threeMonthsAfter)
  {
  }

  /** The body's date fields as UpdateGoal reads them. */
  function Fields(p: DatePayload): (f: (Option<string>, Option<string>))
    ensures f.0.Some? != f.1.Some?
    ensures p.kind == StartDate ==> f.0 == Some(p.value)
    ensures p.kind == EndDate ==> f.1 == Some(p.value)
  {
    if p.kind == StartDate then (Some(p.value), None) else (None, Some(p.value))
  }

  /** The server applies the editor's request to exactly the edited date
      of the edited goal. */
  lemma SavedRequestChangesOneDate(s: Store, e: Editor, start: Option<string>, today: string,
                                   threeMonthsAfter: string -> string)
    requires e.goalId in s.goals
    requires SaveDate(e, start, today, threeMonthsAfter).Put?
    ensures var f := Fields(SaveDate(e, start, today, threeMonthsAfter).body);
      var r := GoalController.UpdateGoal(s, e.goalId, f.0, f.1);
      && r.Ok?
      && (e.kind == StartDate ==> r.value.goals[e.goalId] == s.goals[e.goalId].(startDate := Some(e.temp)))
      && (e.kind == EndDate ==> r.value.goals[e.goalId] == s.goals[e.goalId].(endDate := Some(e.temp)))
      && forall other :: other in s.goals && other != e.goalId ==> r.value.goals[other] == s.goals[other]
  {
  }

  /** The page's local list after a successful save: only the edited date
      of the edited goal changes. */
  function ApplyLocally(goals: seq<(int, Goal)>, p: DatePayload, goalId: int): (r: seq<(int, Goal)>)
    ensures |r| == |goals|
    ensures forall i :: 0 <= i < |r| ==> r[i].0 == goals[i].0
    ensures forall i :: 0 <= i < |r| && goals[i].0 != goalId ==> r[i] == goals[i]
    ensures forall i :: 0 <= i < |r| && goals[i].0 == goalId && p.kind == StartDate ==>
      r[i].1 == goals[i].1.(startDate := Some(p.value))
    ensures forall i :: 0 <= i < |r| && goals[i].0 == goalId && p.kind == EndDate ==>
      r[i].1 == goals[i].1.(endDate := Some(p.value))
  {
    if goals == [] then []
    else
      var g := goals[0];
      var h := if g.0 != goalId then g
               else if p.kind == StartDate then (g.0, g.1.(startDate := Some(p.value)))
               else (g.0, g.1.(endDate := Some(p.value)));
      [h] + ApplyLocally(goals[1..], p, goalId)
  }
}

=== FILE: evidence_controller.dfy ===
/** The evidence upload endpoint. The uploaded file is stored on disk by
    the upload middleware, which is not part of this model; the handler
    sees only the stored file name. */
module EvidenceController {
  import opened Wrappers
  import opened Store

  const FileMissing := "No se subió ningún archivo."
  const DataMissing := "Faltan datos (trimestre o ID de la acción)."
  const UploadDir := "uploads/"

  /** What POST /evidences receives once the upload middleware has run:
      the name the middleware stored the file under (None when no file was
      sent) and the text fields of the form; None is a missing field. */
  datatype Upload = Upload(
    storedName: Option<string>,
    description: Option<string>,
    quarter: Option<int>,
    actionId: Option<int>)

  /** POST /evidences. A missing file is refused first, then a missing
      quarter or action id; the quarter's range and the action's state are
      not checked. The record points at the stored file under `uploads/`
      and names the authenticated user as uploader. */
  function UploadEvidence(s: Store, u: Upload, userId: int, freshId: int): (r: Result<Store>)
    requires freshId !in s.evidences
    ensures u.storedName.None? ==> r == Err(BadRequest, FileMissing)
    ensures r.Ok? <==> u.storedName.Some? && u.quarter.Some? && u.actionId.Some?
    ensures r.Err? && r.message != FileMissing ==> r == Err(BadRequest, DataMissing)
    ensures r.Ok? ==> r.value.(evidences := s.evidences) == s
    ensures r.Ok? ==> r.value.evidences.Keys == s.evidences.Keys + {freshId}
    ensures r.Ok? ==> forall e :: e in s.evidences ==> r.value.evidences[e] == s.evidences[e]
    ensures r.Ok? ==> var e := r.value.evidences[freshId];
      && |e.fileUrl| == |UploadDir| + |u.storedName.value|
      && e.fileUrl[..|UploadDir|] == UploadDir && e.fileUrl[|UploadDir|..] == u.storedName.value
      && e.description == u.description && e.quarter == u.quarter.value
      && e.actionId == u.actionId.value && e.uploadedBy == userId
  {
    if u.storedName.None? then Err(BadRequest, FileMissing)
    else if u.quarter.None? || u.actionId.None? then Err(BadRequest, DataMissing)
    else
      var e := Evidence(UploadDir + u.storedName.value, u.description, u.quarter.value,
                        u.actionId.value, userId);
      Ok(s.(evidences := s.evidences[freshId := e]))
  }

  /** Any quarter number is accepted, even one outside 1..4. */
  lemma AnyQuarterAccepted(s: Store, name: string, quarter: int, actionId: int, userId: int, freshId: int)
    requires freshId !in s.evidences
    ensures UploadEvidence(s, Upload(Some(name), None, Some(quarter), Some(actionId)), userId, freshId).Ok?
  {
  }

  /** Uploading to an existing action keeps the store well-formed, and the
      new evidence is listed among that action's evidences. */
  lemma UploadKeepsWellformed(s: Store, u: Upload, userId: int, freshId: int)
    requires freshId !in s.evidences && Wellformed(s)
    requires UploadEvidence(s, u, userId, freshId).Ok? && u.actionId.value in s.actions
    ensures Wellformed(UploadEvidence(s, u, userId, freshId).value)
    ensures freshId in EvidencesOf(UploadEvidence(s, u, userId, freshId).value.evidences, u.actionId.value)
  {
  }
}

=== FILE: file_preview.dfy ===
/** The evidence file link: the file type read from its name, the link
    target, and whether a preview is offered. */
module FilePreview {
  import opened Wrappers
  import opened Text
  import opened Store
  import EvidenceController

  /** `fileName?.split('.').pop().toLowerCase()`: the text after the last
      dot (the whole name without one), lower-cased. */
  function Extension(fileName: Option<string>): (e: Option<string>)
    ensures e.Some? <==> fileName.Some?
    ensures e.Some? ==> NoSep(e.value, '.') && forall i :: 0 <= i < |e.value| ==> !IsAsciiUpper(e.value[i])
  {
    if fileName.None? then None
    else
      LastPartSpec(fileName.value, '.');
      Some(Lower(LastPart(fileName.value, '.')))
  }

  /** A name "stem.ext" has the lower-cased ext as its extension, whatever
      the stem holds. */
  lemma ExtensionOfDottedName(stem: string, ext: string)
    requires NoSep(ext, '.')
    ensures Extension(Some(stem + "." + ext)) == Some(Lower(ext))
  {
    assert stem + "." + ext == stem + ['.'] + ext;
    SplitLast(stem, ext, '.');
  }

  /** A name without a dot is its own extension, lower-cased. */
  lemma ExtensionOfPlainName(name: string)
    requires NoSep(name, '.')
    ensures Extension(Some(name)) == Some(Lower(name))
  {
    LastPartSpec(name, '.');
  }

  const ImageExtensions := {"jpg", "jpeg", "png", "gif", "webp"}

  predicate IsImage(e: Option<string>) {
    e.Some? && e.value in ImageExtensions
  }

  predicate IsPdf(e: Option<string>) {
    e == Some("pdf")
  }

  /** The link target: the page's origin, a slash and the stored path. */
  function FullUrl(origin: string, url: string): (u: string)
    ensures |u| == |origin| + 1 + |url|
    ensures u[..|origin|] == origin && u[|origin|] == '/' && u[|origin| + 1..] == url
  {
    origin + "/" + url
  }

  /** What the component shows. */
  datatype View =
    | DownloadLink(href: string)                            // neither image nor pdf
    | PreviewToggle(href: string, image: bool, pdf: bool)   // a button opening an inline preview

  function Render(origin: string, url: string, fileName: Option<string>): (v: View)
    ensures v.DownloadLink? <==> !IsImage(Extension(fileName)) && !IsPdf(Extension(fileName))
    ensures v.PreviewToggle? ==> v.image == IsImage(Extension(fileName)) && v.pdf == IsPdf(Extension(fileName))
    ensures v.PreviewToggle? ==> v.image != v.pdf
    ensures v.href == FullUrl(origin, url)
  {
    var e := Extension(fileName);
    if !IsImage(e) && !IsPdf(e) then DownloadLink(FullUrl(origin, url))
    else PreviewToggle(FullUrl(origin, url), IsImage(e), IsPdf(e))
  }

  /** Letter case does not matter: "SCAN.PDF" previews as a pdf and
      "Photo.JPG" as an image. */
  lemma CaseInsensitiveTypes()
    ensures IsPdf(Extension(Some("SCAN.PDF")))
    ensures IsImage(Extension(Some("Photo.JPG")))
  {
    assert "SCAN" + "." + "PDF" == "SCAN.PDF";
    assert "Photo" + "." + "JPG" == "Photo.JPG";
    ExtensionOfDottedName("SCAN", "PDF");
    ExtensionOfDottedName("Photo", "JPG");
    assert Lower("PDF") == "pdf";
    assert Lower("JPG") == "jpg";
  }

  /** An uploaded evidence is linked under /uploads/ of the page's origin. */
  lemma EvidenceLink(s: Store, u: EvidenceController.Upload, userId: int, freshId: int, origin: string)
    requires freshId !in s.evidences
    requires EvidenceController.UploadEvidence(s, u, userId, freshId).Ok?
    ensures var e := EvidenceController.UploadEvidence(s, u, userId, freshId).value.evidences[freshId];
      FullUrl(origin, e.fileUrl) == origin + "/uploads/" + u.storedName.value
  {
    var e := EvidenceController.UploadEvidence(s, u, userId, freshId).value.evidences[freshId];
    assert e.fileUrl == "uploads/" + u.storedName.value;
  }
}

=== FILE: goal_controller.dfy ===
/** The goal endpoints: the process owner's goal list, creation with
    defaults, the goal/action/evidence tree of one process, the partial
    date update and the cascading delete. */
module GoalController {
  import opened Wrappers
  import opened Quarters
  import opened Store
  import opened Ordering

  const GoalFieldsRequired := "Descripción y Proceso son obligatorios."
  const ProcessIdRequired := "El query param \"processId\" es requerido."
  const GoalNotFound := "Meta no encontrada."
  const GoalNotFoundOnDelete := "Meta no encontrada"
  const GoalDeleted := "Meta eliminada correctamente"

  /** The plan every goal is filed under. */
  const ActionPlanId := 1

  /** The processes assigned to a user. */
  function AssignedProcesses(s: Store, user: int): (r: set<int>)
    ensures forall p :: p in r <==> (user, p) in s.assignments
  {
    var r := set pair | pair in s.assignments && pair.0 == user :: pair.1;
    assert forall p :: (user, p) in s.assignments ==> p in r by {
      forall p | (user, p) in s.assignments ensures p in r {
        var pair := (user, p);
        assert pair.1 == p;
      }
    }
    r
  }

  /** The rows `ids` in order, each paired with its goal. */
  function GoalRows(s: Store, ids: seq<int>): (r: seq<(int, Goal)>)
    requires forall i :: 0 <= i < |ids| ==> ids[i] in s.goals
    ensures |r| == |ids|
    ensures forall i :: 0 <= i < |r| ==> r[i] == (ids[i], s.goals[ids[i]])
    ensures forall id, g :: (id, g) in r <==> id in ids && g == s.goals[id]
  {
    if ids == [] then [] else [(ids[0], s.goals[ids[0]])] + GoalRows(s, ids[1..])
  }

  /** GET /goals for a process owner: the goals of the assigned
      processes, by ascending id. */
  function GoalsForJefe(s: Store, user: int): (r: seq<(int, Goal)>)
    ensures forall i, j :: 0 <= i < j < |r| ==> r[i].0 < r[j].0
    ensures forall id, g :: (id, g) in r <==>
      id in s.goals && g == s.goals[id] && (user, g.processId) in s.assignments
    ensures AssignedProcesses(s, user) == {} ==> r == []
  {
    var processIds := AssignedProcesses(s, user);
    if processIds == {} then []
    else GoalRows(s, SortedInts(set id | id in s.goals && s.goals[id].processId in processIds))
  }

  /** The body of POST /goals; None is a missing field. */
  datatype GoalInput = GoalInput(
    eje: Option<string>,
    subEje: Option<string>,
    description: Option<string>,
    indicator: Option<string>,
    processId: Option<int>,
    startDate: Option<string>,
    endDate: Option<string>)

  /** `value || null` on an optional string. */
  function NullIfEmpty(v: Option<string>): (r: Option<string>)
    ensures r.Some? <==> v.Some? && v.value != ""
    ensures r.Some? ==> r == v
  {
    if v.Some? && v.value != "" then v else None
  }

  /** POST /goals: description and process are required; the other text
      fields default to "" and the dates to null. */
  function CreateGoal(s: Store, input: GoalInput, freshId: int): (r: Result<Store>)
    requires freshId !in s.goals
    ensures r.Err? <==> input.description.None? || input.description == Some("") || !Given(input.processId)
    ensures r.Err? ==> r == Err(BadRequest, GoalFieldsRequired)
    ensures r.Ok? ==> r.value.(goals := s.goals) == s
    ensures r.Ok? ==> r.value.goals.Keys == s.goals.Keys + {freshId}
    ensures r.Ok? ==> forall id :: id in s.goals ==> r.value.goals[id] == s.goals[id]
    ensures r.Ok? ==> var g := r.value.goals[freshId];
      && g.description == input.description.value && g.processId == input.processId.value
      && g.eje == input.eje.GetOr("") && g.subEje == input.subEje.GetOr("")
      && g.indicator == input.indicator.GetOr("") && g.actionPlanId == ActionPlanId
      && (g.startDate.None? <==> input.startDate.None? || input.startDate == Some(""))
      && (g.startDate.Some? ==> g.startDate == input.startDate)
      && (g.endDate.None? <==> input.endDate.None? || input.endDate == Some(""))
      && (g.endDate.Some? ==> g.endDate == input.endDate)
  {
    if input.description.None? || input.description == Some("") || !Given(input.processId) then
      Err(BadRequest, GoalFieldsRequired)
    else
      var g := Goal(input.eje.GetOr(""), input.subEje.GetOr(""), input.description.value,
                    input.indicator.GetOr(""), input.processId.value, ActionPlanId,
                    NullIfEmpty(input.startDate), NullIfEmpty(input.endDate));
      Ok(s.(goals := s.goals[freshId := g]))
  }

  /** An action with its evidences, as nested in the process tree. */
  datatype ActionNode = ActionNode(action: Action, evidences: map<int, Evidence>)

  /** A goal with its actions, as nested in the process tree. */
  datatype GoalNode = GoalNode(id: int, goal: Goal, actions: map<int, ActionNode>)

  function ActionsOf(s: Store, goalId: int): (r: map<int, ActionNode>)
    ensures forall a :: a in r <==> a in s.actions && s.actions[a].goalId == goalId
    ensures forall a :: a in r ==> r[a] == ActionNode(s.actions[a], EvidencesOf(s.evidences, a))
  {
    map a | a in s.actions && s.actions[a].goalId == goalId ::
      ActionNode(s.actions[a], EvidencesOf(s.evidences, a))
  }

  /** A node holds its stored goal, exactly the actions of that goal,
      each with exactly its evidences. */
  ghost predicate NodeFaithful(s: Store, n: GoalNode) {
    && n.id in s.goals && n.goal == s.goals[n.id]
    && (forall a :: a in n.actions <==> a in s.actions && s.actions[a].goalId == n.id)
    && (forall a :: a in n.actions ==> n.actions[a].action == s.actions[a])
    && (forall a, e :: a in n.actions ==>
          (e in n.actions[a].evidences <==> e in s.evidences && s.evidences[e].actionId == a))
    && (forall a, e :: a in n.actions && e in n.actions[a].evidences ==>
          n.actions[a].evidences[e] == s.evidences[e])
  }

  /** The goal nodes of `ids`, in order. */
  function GoalNodes(s: Store, ids: seq<int>): (r: seq<GoalNode>)
    requires forall i :: 0 <= i < |ids| ==> ids[i] in s.goals
    ensures NodeIds(r) == ids
    ensures forall i :: 0 <= i < |r| ==> NodeFaithful(s, r[i])
  {
    if ids == [] then [] else [GoalNode(ids[0], s.goals[ids[0]], ActionsOf(s, ids[0]))] + GoalNodes(s, ids[1..])
  }

  /** The goal ids of a tree, in order. */
  function NodeIds(ns: seq<GoalNode>): (r: seq<int>)
    ensures |r| == |ns| && forall i :: 0 <= i < |ns| ==> r[i] == ns[i].id
  {
    if ns == [] then [] else [ns[0].id] + NodeIds(ns[1..])
  }

  /** GET /goals/by-process: the goals of the process by ascending id,
      each with exactly its actions, each action with exactly its
      evidences. The order of the actions (creation time) is not
      modelled. */
  function GoalsByProcess(s: Store, processId: Option<int>): (r: Result<seq<GoalNode>>)
    ensures r.Err? <==> processId.None?
    ensures r.Err? ==> r == Err(BadRequest, ProcessIdRequired)
    ensures r.Ok? ==> Increasing(NodeIds(r.value))
    ensures r.Ok? ==> forall id :: id in NodeIds(r.value) <==>
      id in s.goals && s.goals[id].processId == processId.value
    ensures r.Ok? ==> forall i :: 0 <= i < |r.value| ==> NodeFaithful(s, r.value[i])
  {
    if processId.None? then Err(BadRequest, ProcessIdRequired)
    else
      var ids := SortedInts(set id | id in s.goals && s.goals[id].processId == processId.value);
      Ok(GoalNodes(s, ids))
  }

  /** PUT /goals/:id: writes only the dates present in the body, an empty
      date (or null) clearing it; with neither present it answers "no
      changes" without looking the goal up. No date order or three-month
      limit is checked here. */
  function UpdateGoal(s: Store, id: int, startDate: Option<string>, endDate: Option<string>)
    : (r: Result<Store>)
    ensures startDate.None? && endDate.None? ==> r == Ok(s)
    ensures (startDate.Some? || endDate.Some?) && id !in s.goals ==> r == Err(NotFound, GoalNotFound)
    ensures (startDate.Some? || endDate.Some?) && id in s.goals ==> r.Ok?
    ensures r.Ok? ==> r.value.(goals := s.goals) == s
    ensures r.Ok? ==> r.value.goals.Keys == s.goals.Keys
    ensures r.Ok? ==> forall other :: other in s.goals && other != id ==> r.value.goals[other] == s.goals[other]
    ensures r.Ok? && id in s.goals ==> var g, h := s.goals[id], r.value.goals[id];
      && h.(startDate := g.startDate, endDate := g.endDate) == g
      && h.startDate == (if startDate.Some? then NullIfEmpty(startDate) else g.startDate)
      && h.endDate == (if endDate.Some? then NullIfEmpty(endDate) else g.endDate)
  {
    if startDate.None? && endDate.None? then Ok(s)
    else if id !in s.goals then Err(NotFound, GoalNotFound)
    else
      var g := s.goals[id];
      var g1 := if startDate.Some? then g.(startDate := NullIfEmpty(startDate)) else g;
      var g2 := if endDate.Some? then g1.(endDate := NullIfEmpty(endDate)) else g1;
      Ok(s.(goals := s.goals[id := g2]))
  }

  /** The server accepts any pair of dates: an end before the start is
      stored as given. */
  lemma UpdateGoalAcceptsAnyOrder(s: Store, id: int, start: string, end: string)
    requires id in s.goals && start != "" && end != ""
    ensures UpdateGoal(s, id, Some(start), Some(end)).Ok?
    ensures UpdateGoal(s, id, Some(start), Some(end)).value.goals[id].startDate == Some(start)
    ensures UpdateGoal(s, id, Some(start), Some(end)).value.goals[id].endDate == Some(end)
  {
  }

  /** The actions that belong to goal `id`. */
  function ActionIdsOf(s: Store, id: int): set<int> {
    set a | a in s.actions && s.actions[a].goalId == id
  }

  /** DELETE /goals/:id: the evidences of the goal's actions, the actions
      and then the goal are deleted; the 404 for an unknown goal comes
      after the first two deletes. */
  function DeleteGoal(s: Store, id: int): (r: (Store, Result<string>))
    ensures r.0.(goals := s.goals, actions := s.actions, evidences := s.evidences) == s
    ensures r.0.goals.Keys == s.goals.Keys - {id}
    ensures forall g :: g in r.0.goals ==> r.0.goals[g] == s.goals[g]
    ensures forall a :: a in r.0.actions <==> a in s.actions && s.actions[a].goalId != id
    ensures forall a :: a in r.0.actions ==> r.0.actions[a] == s.actions[a]
    ensures forall e :: e in r.0.evidences <==>
      e in s.evidences && !(s.evidences[e].actionId in s.actions && s.actions[s.evidences[e].actionId].goalId == id)
    ensures forall e :: e in r.0.evidences ==> r.0.evidences[e] == s.evidences[e]
    ensures r.1.Ok? <==> id in s.goals
    ensures r.1.Err? ==> r.1 == Err(NotFound, GoalNotFoundOnDelete)
  {
    var doomed := ActionIdsOf(s, id);
    var evidences := map e | e in s.evidences && s.evidences[e].actionId !in doomed :: s.evidences[e];
    var actions := map a | a in s.actions && a !in doomed :: s.actions[a];
    var t := s.(goals := s.goals - {id}, actions := actions, evidences := evidences);
    (t, if id in s.goals then Ok(GoalDeleted) else Err(NotFound, GoalNotFoundOnDelete))
  }

  /** In a well-formed store the cascade removes the goal, its actions and
      their evidences and nothing else, leaves the store well-formed, and
      leaves it unchanged when the goal is unknown. */
  lemma DeleteGoalCascade(s: Store, id: int)
    requires Wellformed(s)
    ensures var t := DeleteGoal(s, id).0;
      && Wellformed(t)
      && (forall e :: e in t.evidences <==> e in s.evidences && s.actions[s.evidences[e].actionId].goalId != id)
      && (id !in s.goals ==> t == s)
  {
    var t := DeleteGoal(s, id).0;
    if id !in s.goals {
      assert forall a :: a in s.actions ==> s.actions[a].goalId != id;
      assert t.actions == s.actions;
      assert t.evidences == s.evidences;
    }
  }
}

=== FILE: goal_form.dfy ===
/** The administrator's goal creation form: the end-date limit that
    follows the start date, and the submit guards. The "three months
    later" day is an input computed by the browser's date arithmetic. */
module GoalForm {
  import opened Wrappers
  import opened Text
  import opened Store
  import GoalController

  /** The form's fields; an empty string is an empty input, and
      `processId` None is the empty selection. */
  datatype Form = Form(
    eje: string,
    subEje: string,
    description: string,
    indicator: string,
    processId: Option<int>,
    startDate: string,
    endDate: string)

  /** The effect run when the start date changes: the new end-date limit
      ("" without a start), with an end date beyond it cleared. */
  function OnStartChange(f: Form, threeMonthsAfter: string -> string): (r: (Form, string))
    ensures f.startDate == "" ==> r == (f, "")
    ensures f.startDate != "" ==> r.1 == threeMonthsAfter(f.startDate)
    ensures r.0.(endDate := f.endDate) == f
    ensures r.0.endDate == f.endDate || r.0.endDate == ""
    ensures f.startDate != "" ==> !LexLess(r.1, r.0.endDate)
    ensures r.0.endDate != f.endDate ==> LexLess(r.1, f.endDate)
  {
    if f.startDate == "" then (f, "")
    else
      var maxDate := threeMonthsAfter(f.startDate);
      if f.endDate != "" && LexLess(maxDate, f.endDate) then (f.(endDate := ""), maxDate)
      else (f, maxDate)
  }

  /** Running the effect again changes nothing more. */
  lemma OnStartChangeIdempotent(f: Form, threeMonthsAfter: string -> string)
    ensures OnStartChange(OnStartChange(f, threeMonthsAfter).0, threeMonthsAfter) == OnStartChange(f, threeMonthsAfter)
  {
    var maxDate := threeMonthsAfter(f.startDate);
    assert !LexLess(maxDate, "");
  }

  const DatesReversed := "La fecha de inicio no puede ser mayor a la de cierre."

  /** handleSubmit: description and process are required, two set dates
      must not be reversed, and empty dates are sent as null. */
  function Submit(f: Form): (o: Outcome<GoalController.GoalInput>)
    ensures f.description == "" || !Given(f.processId) ==> o == Refused(GoalController.GoalFieldsRequired)
    ensures o.Proceed? <==> (
      && f.description != "" && Given(f.processId)
      && !(f.startDate != "" && f.endDate != "" && LexLess(f.endDate, f.startDate)))
    ensures o.Proceed? ==> (o.request.startDate.None? <==> f.startDate == "")
    ensures o.Proceed? ==> (o.request.endDate.None? <==> f.endDate == "")
    ensures o.Proceed? ==> o.request.description == Some(f.description) && o.request.processId == f.processId
    ensures o.Proceed? ==> o.request.eje == Some(f.eje) && o.request.subEje == Some(f.subEje)
    ensures o.Proceed? ==> o.request.indicator == Some(f.indicator)
  {
    if f.description == "" || !Given(f.processId) then Refused(GoalController.GoalFieldsRequired)
    else if f.startDate != "" && f.endDate != "" && LexLess(f.endDate, f.startDate) then Refused(DatesReversed)
    else Proceed(GoalController.GoalInput(
      Some(f.eje), Some(f.subEje), Some(f.description), Some(f.indicator), f.processId,
      if f.startDate == "" then None else Some(f.startDate),
      if f.endDate == "" then None else Some(f.endDate)))
  }

  /** Every goal the form submits is created, with the form's values and
      its dates in order. */
  lemma SubmittedGoalCreated(s: Store, f: Form, freshId: int)
    requires freshId !in s.goals && Submit(f).Proceed?
    ensures var r := GoalController.CreateGoal(s, Submit(f).request, freshId);
      && r.Ok?
      && var g := r.value.goals[freshId];
      && g.description == f.description && g.processId == f.processId.value
      && g.eje == f.eje && g.subEje == f.subEje && g.indicator == f.indicator
      && (g.startDate.None? <==> f.startDate == "")
      && (g.endDate.None? <==> f.endDate == "")
      && (g.startDate.Some? && g.endDate.Some? ==> !LexLess(g.endDate.value, g.startDate.value))
  {
  }
}

=== FILE: header.dfy ===
/** The page header: the link to the user's profile page and the avatar
    initials. */
module Header {
  import opened Wrappers
  import opened Text
  import opened AuthMiddleware
  import opened ProtectedRoute

  const AdminRole := 1

  /** The profile route for the role in the token: the profile page
      inside that role's home. */
  function ProfilePath(role: int): (path: string)
    ensures path == Home(role) + "/profile"
    ensures role == AdminRole <==> path == "/admin/profile"
    ensures role != AdminRole <==> path == "/dashboard/profile"
  {
    if role == AdminRole then "/admin/profile" else "/dashboard/profile"
  }

  /** The link the header's effect settles on: the process owner's profile
      by default, kept when there is no token or its payload cannot be
      read; otherwise the profile route of the token's role. */
  function ProfileLink(token: Option<string>, decode: string -> Option<Payload>): (path: string)
    ensures path == "/admin/profile" <==>
      Truthy(token) && decode(token.value).Some? && decode(token.value).value.user.Some?
      && decode(token.value).value.user.value.role == AdminRole
    ensures path == "/admin/profile" || path == "/dashboard/profile"
  {
    if Truthy(token) && decode(token.value).Some? && decode(token.value).value.user.Some? then
      ProfilePath(decode(token.value).value.user.value.role)
    else "/dashboard/profile"
  }

  /** The profile link lies inside the home the route guard sends the
      token's role to, and the route tree of that home (which allows role 1
      under /admin and role 2 under /dashboard) renders for roles 1 and 2. */
  lemma ProfileLinkUnderHome(token: string, decode: string -> Option<Payload>, p: Principal,
                             allowedRoles: set<int>)
    requires token != "" && decode(token) == Some(Payload(Some(p)))
    ensures ProfileLink(Some(token), decode) == Home(p.role) + "/profile"
    ensures p.role !in allowedRoles ==> Decide(Some(token), decode, allowedRoles) == Redirect(Home(p.role))
    ensures p.role == 1 || p.role == 2 ==>
      Decide(Some(token), decode, if Home(p.role) == "/admin" then {1} else {2}) == Render
  {
  }

  /** `s.charAt(0)`: the first character, or "" for "". */
  function FirstChar(s: string): (r: string)
    ensures |r| <= 1
    ensures s != "" ==> r == [s[0]]
  {
    Prefix(s, 1)
  }

  /** getInitials: "U" without a name; otherwise the upper-cased first
      characters of the first one or two space-separated parts. */
  function Initials(name: Option<string>): (r: string)
    ensures !Truthy(name) ==> r == "U"
    ensures |r| <= 2
    ensures forall i :: 0 <= i < |r| ==> !IsAsciiLower(r[i])
  {
    if !Truthy(name) then "U"
    else
      var parts := Split(name.value, ' ');
      if |parts| == 1 then Upper(FirstChar(parts[0]))
      else Upper(FirstChar(parts[0]) + FirstChar(parts[1]))
  }

  /** A one-word name gives its first letter, upper-cased. */
  lemma OneWordInitial(word: string)
    requires word != "" && NoSep(word, ' ')
    ensures Initials(Some(word)) == [UpperChar(word[0])]
  {
    SplitNoSep(word, ' ');
  }

  /** A name "first rest" gives the upper-cased first letters of its
      first two words, whatever follows them. */
  lemma TwoWordInitials(first: string, rest: string)
    requires first != "" && NoSep(first, ' ') && rest != "" && rest[0] != ' '
    ensures Initials(Some(first + " " + rest)) == [UpperChar(first[0]), UpperChar(rest[0])]
  {
    assert first + " " + rest == first + [' '] + rest;
    SplitFirst(first, rest, ' ');
    assert Split(rest, ' ')[0] == [rest[0]] + Split(rest[1..], ' ')[0];
  }

  /** A name made of spaces only yields no initial at all. */
  lemma BlankNameNoInitial()
    ensures Initials(Some(" ")) == ""
  {
    assert " " == "" + [' '] + "";
    SplitFirst("", "", ' ');
  }
}

=== FILE: ordering.dfy ===
/** Result orderings of the list queries: ascending ids (`ORDER BY id`)
    and ascending names (`ORDER BY name ASC`, modelled as the code-point
    order of Text.LexLess). */
module Ordering {
  import opened Text

  ghost predicate Increasing(s: seq<int>) {
    forall i, j :: 0 <= i < j < |s| ==> s[i] < s[j]
  }

  /** Every non-empty finite set of integers has a least element. */
  lemma {:induction false} MinExists(s: set<int>)
    requires s != {}
    ensures exists m :: m in s && forall x :: x in s ==> m <= x
    decreases |s|
  {
    assert exists z :: z in s by {
      if forall z :: z !in s { assert false; }
    }
    var y :| y in s;
    if s != {y} {
      MinExists(s - {y});
      var m :| m in s - {y} && forall x :: x in s - {y} ==> m <= x;
      var least := if y < m then y else m;
      forall x | x in s
        ensures least <= x
      {
        if x != y { assert x in s - {y}; }
      }
    } else {
      assert forall x :: x in s ==> y <= x;
    }
  }

  function Min(s: set<int>): (m: int)
    requires s != {}
    ensures m in s && forall x :: x in s ==> m <= x
  {
    MinExists(s);
    var m :| m in s && forall x :: x in s ==> m <= x; m
  }

  /** A strictly smaller element in front keeps a sequence increasing. */
  lemma ConsIncreasing(m: int, rest: seq<int>)
    requires Increasing(rest)
    requires forall i :: 0 <= i < |rest| ==> m < rest[i]
    ensures Increasing([m] + rest)
  {
    var r := [m] + rest;
    forall i, j | 0 <= i < j < |r|
      ensures r[i] < r[j]
    {
      assert r[j] == rest[j - 1];
      if i > 0 {
        assert r[i] == rest[i - 1];
      }
    }
  }

  /** The elements of `s` in ascending order, each exactly once. */
  function SortedInts(s: set<int>): (r: seq<int>)
    ensures |r| == |s|
    ensures forall x :: x in r <==> x in s
    ensures forall i :: 0 <= i < |r| ==> r[i] in s
    ensures Increasing(r)
    decreases |s|
  {
    if s == {} then []
    else
      var m := Min(s);
      var others := s - {m};
      assert |others| == |s| - 1;
      var rest := SortedInts(others);
      ConsIncreasing(m, rest);
      [m] + rest
  }

  /** The keys of a sequence of rows are sorted by `key`. */
  ghost predicate SortedBy<T>(s: seq<T>, key: T -> string) {
    forall i, j :: 0 <= i < j < |s| ==> LexLe(key(s[i]), key(s[j]))
  }

  lemma LexLeTransitive(a: string, b: string, c: string)
    requires LexLe(a, b) && LexLe(b, c)
    ensures LexLe(a, c)
  {
    if a != b && b != c { LexLessTransitive(a, b, c); }
  }

  /** Inserts `x` before the first row whose key is not smaller. */
  function InsertBy<T>(x: T, s: seq<T>, key: T -> string): (r: seq<T>)
    ensures multiset(r) == multiset(s) + multiset{x}
    decreases |s|
  {
    if |s| == 0 then [x]
    else if LexLe(key(x), key(s[0])) then [x] + s
    else
      assert s == [s[0]] + s[1..];
      [s[0]] + InsertBy(x, s[1..], key)
  }

  lemma {:induction false} InsertBySorted<T>(x: T, s: seq<T>, key: T -> string)
    requires SortedBy(s, key)
    ensures SortedBy(InsertBy(x, s, key), key)
    decreases |s|
  {
    var r := InsertBy(x, s, key);
    if |s| == 0 {
    } else if LexLe(key(x), key(s[0])) {
      forall i, j | 0 <= i < j < |r|
        ensures LexLe(key(r[i]), key(r[j]))
      {
        if i == 0 {
          if j > 1 { LexLeTransitive(key(x), key(s[0]), key(s[j - 1])); }
        }
      }
    } else {
      LexLessTotal(key(x), key(s[0]));
      var t := InsertBy(x, s[1..], key);
      InsertBySorted(x, s[1..], key);
      forall i, j | 0 <= i < j < |r|
        ensures LexLe(key(r[i]), key(r[j]))
      {
        if i == 0 {
          var y := r[j];
          assert y == t[j - 1];
          assert y in multiset(t);
          assert y in multiset(s[1..]) || y == x;
          if y != x {
            var k :| 0 <= k < |s[1..]| && s[1..][k] == y;
            assert s[k + 1] == y;
          }
        }
      }
    }
  }

  /** Insertion sort by `key`: a sorted permutation of the input. */
  function SortBy<T>(s: seq<T>, key: T -> string): (r: seq<T>)
    ensures multiset(r) == multiset(s)
    decreases |s|
  {
    if |s| == 0 then []
    else
      assert s == [s[0]] + s[1..];
      InsertBy(s[0], SortBy(s[1..], key), key)
  }

  lemma {:induction false} SortBySorted<T>(s: seq<T>, key: T -> string)
    ensures SortedBy(SortBy(s, key), key)
    decreases |s|
  {
    if |s| > 0 {
      SortBySorted(s[1..], key);
      InsertBySorted(s[0], SortBy(s[1..], key), key);
    }
  }
}

=== FILE: password_strength.dfy ===
/** The password strength meter shared by the activation page and the
    profile page, and the two forms it guards. Both pages compute the
    same four checks and the same bar colour. */
module PasswordStrength {
  import opened Wrappers
  import opened Text
  import Store
  import AuthController

  /** The characters of the "special" check's character class. */
  const Specials := "!@#$%^&*(),.?\":{}|<>"

  predicate IsSpecial(c: char) {
    c in Specials
  }

  /** Some character of `p` satisfies the test. */
  predicate Has(p: string, test: char -> bool) {
    exists i :: 0 <= i < |p| && test(p[i])
  }

  datatype Checks = Checks(length: bool, upper: bool, number: bool, special: bool)

  /** The four checks: at least 8 characters, an A-Z, a 0-9 and a special
      character. */
  function CheckPassword(p: string): (c: Checks)
    ensures c.length <==> |p| >= 8
    ensures c.upper <==> exists i :: 0 <= i < |p| && IsAsciiUpper(p[i])
    ensures c.number <==> exists i :: 0 <= i < |p| && IsDigit(p[i])
    ensures c.special <==> exists i :: 0 <= i < |p| && IsSpecial(p[i])
  {
    Checks(|p| >= 8, Has(p, IsAsciiUpper), Has(p, IsDigit), Has(p, IsSpecial))
  }

  function Count(b: bool): nat {
    if b then 1 else 0
  }

  /** The number of satisfied checks. */
  function Score(c: Checks): (n: nat)
    ensures n <= 4
    ensures n == 4 <==> c.length && c.upper && c.number && c.special
    ensures n == 0 <==> !c.length && !c.upper && !c.number && !c.special
  {
    Count(c.length) + Count(c.upper) + Count(c.number) + Count(c.special)
  }

  /** A password's score. */
  function Strength(p: string): (n: nat)
    ensures n <= 4
  {
    Score(CheckPassword(p))
  }

  /** Typing more characters never lowers the score. */
  lemma ScoreNeverDrops(p: string, q: string)
    ensures Strength(p) <= Strength(p + q)
  {
    var c, d := CheckPassword(p), CheckPassword(p + q);
    if c.upper {
      var i :| 0 <= i < |p| && IsAsciiUpper(p[i]);
      assert (p + q)[i] == p[i];
    }
    if c.number {
      var i :| 0 <= i < |p| && IsDigit(p[i]);
      assert (p + q)[i] == p[i];
    }
    if c.special {
      var i :| 0 <= i < |p| && IsSpecial(p[i]);
      assert (p + q)[i] == p[i];
    }
  }

  const Red := "#dc3545"
  const Yellow := "#ffc107"
  const Green := "#28a745"

  /** getBarColor: red up to 1, yellow up to 3, green above. */
  function BarColor(score: int): (color: string)
    ensures color == Red <==> score <= 1
    ensures color == Yellow <==> 1 < score <= 3
    ensures color == Green <==> score > 3
  {
    if score <= 1 then Red else if score <= 3 then Yellow else Green
  }

  /** The bar is green exactly for the passwords the forms accept. */
  lemma GreenIffStrong(p: string)
    ensures BarColor(Strength(p)) == Green <==> Strength(p) == 4
  {
  }

  const WeakOnActivation := "La contraseña no cumple con los requisitos de seguridad."
  const MismatchOnActivation := "Las contraseñas no coinciden."
  const WeakOnProfile := "La contraseña nueva no es segura."
  const MismatchOnProfile := "Las nuevas contraseñas no coinciden."

  /** The body of POST /auth/activate. */
  datatype ActivationRequest = ActivationRequest(email: string, code: string, password: string)

  /** The activation page's submit: strength is checked before the
      confirmation, and the request carries email, code and password. */
  function SubmitActivation(email: string, code: string, password: string, confirm: string)
    : (o: Outcome<ActivationRequest>)
    ensures Strength(password) < 4 ==> o == Refused(WeakOnActivation)
    ensures Strength(password) == 4 && password != confirm ==> o == Refused(MismatchOnActivation)
    ensures o.Proceed? <==> Strength(password) == 4 && password == confirm
    ensures o.Proceed? ==> o.request == ActivationRequest(email, code, password)
  {
    if Strength(password) < 4 then Refused(WeakOnActivation)
    else if password != confirm then Refused(MismatchOnActivation)
    else Proceed(ActivationRequest(email, code, password))
  }

  /** The body of PUT /auth/change-password. */
  datatype ChangeRequest = ChangeRequest(currentPassword: string, newPassword: string)

  /** The profile page's password fields. */
  datatype PasswordForm = PasswordForm(current: string, newPassword: string, confirm: string)

  /** The profile page's change-password submit. */
  function SubmitChange(f: PasswordForm): (o: Outcome<ChangeRequest>)
    ensures Strength(f.newPassword) < 4 ==> o == Refused(WeakOnProfile)
    ensures Strength(f.newPassword) == 4 && f.newPassword != f.confirm ==> o == Refused(MismatchOnProfile)
    ensures o.Proceed? <==> Strength(f.newPassword) == 4 && f.newPassword == f.confirm
    ensures o.Proceed? ==> o.request == ChangeRequest(f.current, f.newPassword)
  {
    if Strength(f.newPassword) < 4 then Refused(WeakOnProfile)
    else if f.newPassword != f.confirm then Refused(MismatchOnProfile)
    else Proceed(ChangeRequest(f.current, f.newPassword))
  }

  const EmptyForm := PasswordForm("", "", "")

  /** The fields once handleChangePassword has finished: cleared only when
      the request was sent and the server answered with success; a refusal
      before the request or an error answer leaves them as typed. */
  function AfterSubmit(f: PasswordForm, serverOk: bool): (g: PasswordForm)
    ensures g == f || g == EmptyForm
    ensures g == EmptyForm && f != EmptyForm ==> SubmitChange(f).Proceed? && serverOk
    ensures !SubmitChange(f).Proceed? ==> g == f
  {
    if SubmitChange(f).Proceed? && serverOk then EmptyForm else f
  }

  /** The fields are cleared exactly when the server changed the password;
      a wrong current password (the server's 400) keeps what was typed. */
  lemma ClearedIffChanged(f: PasswordForm, s: Store.Store, userId: int, newHash: string,
                          matches: (string, string) -> bool)
    requires SubmitChange(f).Proceed?
    ensures var ok := AuthController.ChangePassword(s, userId, f.current, newHash, matches).Ok?;
      && (AfterSubmit(f, ok) == EmptyForm <==> ok)
      && (!ok ==> AfterSubmit(f, ok) == f)
  {
  }

  /** The two pages accept the same new passwords. */
  lemma PagesAgree(email: string, code: string, current: string, password: string, confirm: string)
    ensures SubmitActivation(email, code, password, confirm).Proceed?
        <==> SubmitChange(PasswordForm(current, password, confirm)).Proceed?
  {
  }

  /** An example: "Clave#2025" passes all four checks. */
  lemma StrongExample()
    ensures Strength("Clave#2025") == 4
  {
    var p := "Clave#2025";
    assert IsAsciiUpper(p[0]) && IsSpecial(p[5]) && IsDigit(p[6]);
  }
}

=== FILE: process_controller.dfy ===
/** The process endpoints: the list ordered by name, and creation with a
    trimmed, unique name. Uniqueness is the database's constraint on
    `processes.name`, whose violation the handler answers with 409. */
module ProcessController {
  import opened Wrappers
  import opened Text
  import opened Store
  import opened Ordering

  const NameRequired := "El nombre (name) es obligatorio."
  const NameTaken := "Un proceso con ese nombre ya existe."

  /** Some process already has this name. */
  predicate NameInUse(processes: map<int, Process>, name: string) {
    exists id :: id in processes && processes[id].name == name
  }

  /** No two processes share a name. */
  ghost predicate NamesUnique(processes: map<int, Process>) {
    forall a, b :: a in processes && b in processes && processes[a].name == processes[b].name ==> a == b
  }

  /** The name is missing or only whitespace. */
  predicate Blank(name: Option<string>) {
    name.None? || Trim(name.value) == ""
  }

  /** POST /processes. A missing or blank name is refused, a name already
      in use after trimming answers 409, and the stored name is the trimmed
      input. */
  function CreateProcess(s: Store, name: Option<string>, freshId: int): (r: Result<Store>)
    requires freshId !in s.processes
    ensures Blank(name) ==> r == Err(BadRequest, NameRequired)
    ensures r.Ok? <==> !Blank(name) && !NameInUse(s.processes, Trim(name.value))
    ensures r.Err? && r.code != BadRequest ==> r == Err(Conflict, NameTaken)
    ensures r.Ok? ==> r.value.(processes := s.processes) == s
    ensures r.Ok? ==> r.value.processes.Keys == s.processes.Keys + {freshId}
    ensures r.Ok? ==> forall id :: id in s.processes ==> r.value.processes[id] == s.processes[id]
    ensures r.Ok? ==> r.value.processes[freshId] == Process(Trim(name.value))
  {
    if name.None? || name.value == "" || Trim(name.value) == "" then Err(BadRequest, NameRequired)
    else if NameInUse(s.processes, Trim(name.value)) then Err(Conflict, NameTaken)
    else
      Ok(s.(processes := s.processes[freshId := Process(Trim(name.value))]))
  }

  /** Surrounding whitespace makes no difference: a padded name is handled
      as the trimmed one. */
  lemma CreateProcessIgnoresPadding(s: Store, name: string, freshId: int)
    requires freshId !in s.processes
    ensures CreateProcess(s, Some(name), freshId) == CreateProcess(s, Some(Trim(name)), freshId)
  {
    var t := Trim(name);
    TrimIdempotent(name);
    assert Blank(Some(name)) <==> Blank(Some(t));
    if !Blank(Some(name)) {
      assert Trim(t) == t;
    }
  }

  /** A name is refused as blank exactly when it is all whitespace. */
  lemma BlankIffAllSpace(s: Store, name: string, freshId: int)
    requires freshId !in s.processes
    ensures CreateProcess(s, Some(name), freshId) == Err(BadRequest, NameRequired) <==> AllSpace(name)
  {
    TrimEmptyIffAllSpace(name);
  }

  /** Creation keeps process names unique. */
  lemma CreateProcessKeepsNamesUnique(s: Store, name: Option<string>, freshId: int)
    requires freshId !in s.processes && NamesUnique(s.processes)
    requires CreateProcess(s, name, freshId).Ok?
    ensures NamesUnique(CreateProcess(s, name, freshId).value.processes)
  {
  }

  /** The rows `ids` in order, each paired with its process. */
  function ProcessRows(s: Store, ids: seq<int>): (r: seq<(int, Process)>)
    requires forall i :: 0 <= i < |ids| ==> ids[i] in s.processes
    ensures |r| == |ids|
    ensures forall id, p :: (id, p) in r <==> id in ids && p == s.processes[id]
  {
    if ids == [] then [] else [(ids[0], s.processes[ids[0]])] + ProcessRows(s, ids[1..])
  }

  function NameOf(row: (int, Process)): string {
    row.1.name
  }

  /** GET /processes: every process once, ordered by name. */
  function AllProcesses(s: Store): (r: seq<(int, Process)>)
    ensures |r| == |s.processes|
    ensures forall id, p :: (id, p) in r <==> id in s.processes && p == s.processes[id]
    ensures SortedBy(r, NameOf)
  {
    var rows := ProcessRows(s, SortedInts(s.processes.Keys));
    SortBySorted(rows, NameOf);
    var r := SortBy(rows, NameOf);
    assert forall row :: row in r <==> row in rows by {
      forall row ensures row in r <==> row in rows {
        assert row in r <==> row in multiset(r);
        assert row in rows <==> row in multiset(rows);
      }
    }
    assert |r| == |multiset(r)| == |multiset(rows)| == |rows|;
    r
  }
}

=== FILE: protected_route.dfy ===
/** The client-side route guard: whether a page renders or where the
    browser is sent instead. Reading the token's payload (jwt-decode,
    which does not check the signature) is an oracle; a payload without a
    user makes the role lookup throw, handled like a token that does not
    decode. */
module ProtectedRoute {
  import opened Wrappers
  import opened Text
  import opened AuthMiddleware

  datatype Route =
    | ToLogin(tokenRemoved: bool)  // redirect to /login
    | Redirect(path: string)       // redirect to the role's home
    | Render                       // render the nested routes

  /** The home page a role is sent to: the administrator's for role 1,
      the process owner's for every other role. */
  function Home(role: int): (path: string)
    ensures path == "/admin" <==> role == 1
    ensures path == "/admin" || path == "/dashboard"
  {
    if role == 1 then "/admin" else "/dashboard"
  }

  /** The guard over the stored token and the roles the route allows. */
  function Decide(token: Option<string>, decode: string -> Option<Payload>, allowedRoles: set<int>)
    : (r: Route)
    ensures !Truthy(token) ==> r == ToLogin(false)
    ensures r == Render <==> (
      && Truthy(token) && decode(token.value).Some? && decode(token.value).value.user.Some?
      && decode(token.value).value.user.value.role in allowedRoles)
    ensures r.ToLogin? && r.tokenRemoved <==>
      Truthy(token) && (decode(token.value).None? || decode(token.value).value.user.None?)
    ensures r.Redirect? ==> (r.path == "/admin" <==> decode(token.value).value.user.value.role == 1)
    ensures r.Redirect? ==> r.path == "/admin" || r.path == "/dashboard"
  {
    if !Truthy(token) then ToLogin(false)
    else
      var payload := decode(token.value);
      if payload.None? || payload.value.user.None? then ToLogin(true)
      else
        var role := payload.value.user.value.role;
        if role !in allowedRoles then Redirect(Home(role))
        else Render
  }

  /** The guard and the server agree on a login token: the page renders
      exactly when the server's role gate for a route allowing that single
      role lets the same token through. */
  lemma GuardAgreesWithServer(p: Principal, token: string, decode: string -> Option<Payload>,
                              verify: string -> Option<Payload>, allowed: int)
    requires NoSep(token, ' ') && token != ""
    requires decode(token) == Some(Payload(Some(p))) && verify(token) == Some(Payload(Some(p)))
    ensures Authenticate(Some("Bearer " + token), verify) == Ok(Some(p))
    ensures Decide(Some(token), decode, {allowed}) == Render
        <==> CheckRole(Authenticate(Some("Bearer " + token), verify).value, allowed).Ok?
  {
    IssuedTokenPasses(p, token, verify, allowed);
  }

  /** For the two roles the user form offers (1 and 2), a token whose role
      a route does not allow is sent to the other route tree: the
      administrator to /admin, the process owner to /dashboard. Any other
      role is sent to /dashboard even from the /dashboard tree. */
  lemma RedirectTargets(token: string, decode: string -> Option<Payload>, p: Principal)
    requires token != "" && decode(token) == Some(Payload(Some(p)))
    ensures Decide(Some(token), decode, {1}) == (if p.role == 1 then Render else Redirect("/dashboard"))
    ensures Decide(Some(token), decode, {2}) == (if p.role == 2 then Render else if p.role == 1 then Redirect("/admin") else Redirect("/dashboard"))
  {
  }
}

=== FILE: quarter_module.dfy ===
/** The process owner's panel for one quarter: its status tag, which
    controls it shows, and the guards of its upload and send buttons. */
module QuarterModule {
  import opened Wrappers
  import opened Quarters
  import Store
  import ActionController
  import EvidenceController

  /** The text and colour of a status tag. */
  datatype StatusTag = StatusTag(text: string, color: string)

  const Gray := "#6B7280"

  /** getStatusDetails of the quarter panel. */
  function StatusDetails(status: int): (t: StatusTag)
    ensures status == Draft ==> t == StatusTag("Borrador", Gray)
    ensures status == Submitted ==> t == StatusTag("Enviado (Pendiente Aprob.)", "#EAB308")
    ensures status == Approved ==> t == StatusTag("Aprobado", "#28a745")
    ensures status == Rejected ==> t == StatusTag("Rechazado", "#dc3545")
    ensures status == Locked ==> t == StatusTag("Bloqueado", "#374151")
    ensures !(Draft <= status <= Locked) <==> t.text == "N/A"
    ensures !(Draft <= status <= Locked) ==> t.color == Gray
  {
    if status == Draft then StatusTag("Borrador", Gray)
    else if status == Submitted then StatusTag("Enviado (Pendiente Aprob.)", "#EAB308")
    else if status == Approved then StatusTag("Aprobado", "#28a745")
    else if status == Rejected then StatusTag("Rechazado", "#dc3545")
    else if status == Locked then StatusTag("Bloqueado", "#374151")
    else StatusTag("N/A", Gray)
  }

  /** The five statuses get five different labels. */
  lemma StatusLabelsDistinct(a: int, b: int)
    requires Draft <= a <= Locked && Draft <= b <= Locked && a != b
    ensures StatusDetails(a).text != StatusDetails(b).text
  {
  }

  predicate IsLocked(status: int) {
    status == Submitted || status == Approved || status == Locked
  }

  predicate CanSend(status: int) {
    status == Draft || status == Rejected
  }

  /** The panel offers sending for exactly the statuses the server's send
      accepts, and for a known status exactly one of "locked" and "can
      send" holds. An unknown status is neither. */
  lemma GatingAgreesWithServer(status: int)
    ensures CanSend(status) <==> Sendable(status)
    ensures Draft <= status <= Locked ==> (IsLocked(status) <==> !CanSend(status))
    ensures !(Draft <= status <= Locked) ==> !IsLocked(status) && !CanSend(status)
  {
  }

  /** Which parts of the panel are shown. */
  datatype Panel = Panel(
    body: bool,
    rejectionNote: bool,
    uploadInput: bool,
    uploadButton: bool,
    sendButton: bool)

  /** The rendering decisions: a Locked quarter hides its whole body; the
      upload input shows when the quarter is not locked, its button once a
      file is chosen; the send button shows when the quarter can be sent;
      the rejection note when the quarter is Rejected with a reason. */
  function View(status: int, rejectionReason: Option<string>, fileChosen: bool): (p: Panel)
    ensures !p.body ==> !p.rejectionNote && !p.uploadInput && !p.uploadButton && !p.sendButton
    ensures p.body <==> status != Locked
    ensures p.uploadButton ==> p.uploadInput
    ensures p.sendButton ==> Sendable(status)
    ensures p.rejectionNote ==> status == Rejected
    ensures Draft <= status <= Locked ==> (p.uploadInput <==> p.sendButton)
    ensures p.sendButton <==> status != Locked && CanSend(status)
    ensures p.uploadInput <==> status != Locked && !IsLocked(status)
    ensures p.uploadButton <==> p.uploadInput && fileChosen
    ensures p.rejectionNote <==> status == Rejected && Truthy(rejectionReason)
  {
    var body := status != Locked;
    var upload := body && !IsLocked(status);
    Panel(
      body,
      body && status == Rejected && Truthy(rejectionReason),
      upload,
      upload && fileChosen,
      body && CanSend(status))
  }

  /** The send button shows exactly where the server's send succeeds. */
  lemma SendButtonMeansSendSucceeds(a: Action, q: int, rejectionReason: Option<string>, fileChosen: bool)
    requires ValidQuarter(q)
    ensures View(a.At(q).status, rejectionReason, fileChosen).sendButton <==> Send(a, q).Ok?
  {
  }

  const ChooseFileFirst := "Selecciona un archivo primero."
  const EvidenceRequired := "Es obligatorio subir al menos un archivo de evidencia para enviar el trimestre a revisión."

  /** The multipart form handleUploadEvidence posts: the chosen file
      (known here by its name), that name again as the description, the
      quarter and the action. */
  datatype UploadForm = UploadForm(chosenName: string, description: string, quarter: int, actionId: int)

  /** handleUploadEvidence: without a chosen file nothing is sent;
      otherwise the form carries the file, its name as the description,
      the quarter and the action. */
  function UploadRequest(chosen: Option<string>, quarter: int, actionId: int): (o: Outcome<UploadForm>)
    ensures chosen.None? <==> o == Refused(ChooseFileFirst)
    ensures o.Proceed? ==> o.request.chosenName == chosen.value && o.request.description == chosen.value
    ensures o.Proceed? ==> o.request.quarter == quarter && o.request.actionId == actionId
  {
    if chosen.None? then Refused(ChooseFileFirst)
    else Proceed(UploadForm(chosen.value, chosen.value, quarter, actionId))
  }

  /** What the evidence handler receives for a posted form once the upload
      middleware has stored the file under `storedName`. */
  function Received(f: UploadForm, storedName: string): EvidenceController.Upload {
    EvidenceController.Upload(Some(storedName), Some(f.description), Some(f.quarter), Some(f.actionId))
  }

  /** Every upload the panel sends passes the server's validation. The
      record points at the name the middleware chose, while the chosen
      file's own name survives only as the description. */
  lemma UploadRequestAccepted(s: Store.Store, chosen: string, storedName: string, quarter: int,
                              actionId: int, userId: int, freshId: int)
    requires freshId !in s.evidences
    ensures var o := UploadRequest(Some(chosen), quarter, actionId);
      && o.Proceed?
      && var r := EvidenceController.UploadEvidence(s, Received(o.request, storedName), userId, freshId);
      && r.Ok?
      && var e := r.value.evidences[freshId];
      && e.fileUrl == EvidenceController.UploadDir + storedName
      && e.description == Some(chosen) && e.quarter == quarter && e.actionId == actionId
  {
  }

  /** handleSendQuarter: a quarter with no evidence is refused before any
      request; otherwise the user confirms, and the request names the
      quarter. */
  function SendRequest(evidenceCount: nat, quarter: int, confirmed: bool): (o: Outcome<int>)
    ensures evidenceCount == 0 <==> o == Refused(EvidenceRequired)
    ensures evidenceCount > 0 ==> (o.Proceed? <==> confirmed)
    ensures o.Proceed? ==> o.request == quarter
  {
    if evidenceCount == 0 then Refused(EvidenceRequired)
    else if !confirmed then Cancelled
    else Proceed(quarter)
  }

  /** A send the panel makes from a shown send button is accepted by the
      server. The panel's evidence guard is stricter than the server,
      which counts no evidences: with every evidence gone, the server still
      accepts the quarter the panel refuses to send. */
  lemma SendRequestAccepted(s: Store.Store, id: int, q: int, evidenceCount: nat, confirmed: bool,
                            rejectionReason: Option<string>, fileChosen: bool)
    requires id in s.actions && ValidQuarter(q)
    requires View(s.actions[id].At(q).status, rejectionReason, fileChosen).sendButton
    ensures var o := SendRequest(evidenceCount, q, confirmed);
      o.Proceed? ==> ActionController.SendQuarter(s, id, Some(o.request)).Ok?
    ensures SendRequest(0, q, confirmed) == Refused(EvidenceRequired)
    ensures ActionController.SendQuarter(s.(evidences := map[]), id, Some(q)).Ok?
  {
  }
}

=== FILE: quarters.dfy ===
/** The per-action quarterly review state machine.

    An action carries four fixed quarter slots, each with a status code,
    an optional execution percentage and an optional completion flag,
    plus one action-level rejection reason and a cached progress figure.
    Submitting and reviewing a quarter are pure transitions on one action;
    the handlers in ActionController look the action up and store the
    result. */
module Quarters {
  import opened Wrappers

  /** The five status codes of a quarter slot. */
  const Draft := 1
  const Submitted := 2
  const Approved := 3
  const Rejected := 4
  const Locked := 5

  predicate ValidQuarter(q: int) { 1 <= q <= 4 }

  /** One quarter: `tq_status_id`, `tq_execution_percent` (None when the
      column is null) and `tq_completed`. */
  datatype Slot = Slot(status: int, percent: Option<real>, completed: Option<bool>)

  datatype Action = Action(
    description: string,
    goalId: int,
    createdBy: int,
    responsibleCharge: string,
    activities: string,
    budget: real,
    observations: string,
    rejectionReason: Option<string>,
    progress: Option<real>,
    t1: Slot, t2: Slot, t3: Slot, t4: Slot)
  {
    /** The slot of quarter `q`. */
    function At(q: int): Slot
      requires ValidQuarter(q)
    {
      if q == 1 then t1 else if q == 2 then t2 else if q == 3 then t3 else t4
    }

    /** This action with the slot of quarter `q` replaced. */
    function With(q: int, s: Slot): (b: Action)
      requires ValidQuarter(q)
      ensures b.At(q) == s
      ensures forall p :: ValidQuarter(p) && p != q ==> b.At(p) == At(p)
      ensures SameHeader(this, b)
    {
      if q == 1 then this.(t1 := s)
      else if q == 2 then this.(t2 := s)
      else if q == 3 then this.(t3 := s)
      else this.(t4 := s)
    }
  }

  /** Every field outside the four quarter slots agrees. */
  predicate SameHeader(a: Action, b: Action) {
    && a.description == b.description && a.goalId == b.goalId && a.createdBy == b.createdBy
    && a.responsibleCharge == b.responsibleCharge && a.activities == b.activities
    && a.budget == b.budget && a.observations == b.observations
    && a.rejectionReason == b.rejectionReason && a.progress == b.progress
  }

  /** The slots of every quarter outside `qs` agree. */
  ghost predicate SameSlotsExcept(a: Action, b: Action, qs: set<int>) {
    forall p :: ValidQuarter(p) && p !in qs ==> a.At(p) == b.At(p)
  }

  /** The percentage a quarter contributes to progress: unset counts 0. */
  function Pct(a: Action, q: int): real
    requires ValidQuarter(q)
  {
    a.At(q).percent.GetOr(0.0)
  }

  /** The unweighted mean of the four quarter percentages. */
  function Mean(a: Action): real {
    (Pct(a, 1) + Pct(a, 2) + Pct(a, 3) + Pct(a, 4)) / 4.0
  }

  /** The cached progress figure agrees with the four slots. */
  predicate ProgressConsistent(a: Action) {
    a.progress == Some(Mean(a))
  }

  predicate PercentInRange(p: real) { 0.0 <= p <= 100.0 }

  ghost predicate AllPercentsInRange(a: Action) {
    forall q :: ValidQuarter(q) ==> PercentInRange(Pct(a, q))
  }

  /** The statuses from which a quarter may be sent for review. */
  predicate Sendable(status: int) { status == Draft || status == Rejected }

  const SendRefused := "Acción no encontrada o estado inválido."
  const ReasonRequired := "Motivo obligatorio."

  /** Sending quarter `q` of an existing action: the guarded update that
      moves a Draft or Rejected quarter to Submitted. Any other status
      makes the conditional update touch no row, reported as 404. */
  function Send(a: Action, q: int): (r: Result<Action>)
    requires ValidQuarter(q)
    ensures r.Ok? <==> Sendable(a.At(q).status)
    ensures r.Err? ==> r.code == NotFound && r.message == SendRefused
    ensures r.Ok? ==> r.value.At(q).status == Submitted
    ensures r.Ok? ==> r.value.At(q).percent == a.At(q).percent
    ensures r.Ok? ==> r.value.At(q).completed == a.At(q).completed
    ensures r.Ok? ==> SameSlotsExcept(a, r.value, {q}) && SameHeader(a, r.value)
  {
    if Sendable(a.At(q).status) then Ok(a.With(q, a.At(q).(status := Submitted)))
    else Err(NotFound, SendRefused)
  }

  /** A quarter just sent is Submitted, which is not sendable: a second
      consecutive send fails and changes nothing. */
  lemma SendTwiceFails(a: Action, q: int)
    requires ValidQuarter(q)
    requires Send(a, q).Ok?
    ensures Send(Send(a, q).value, q) == Err(NotFound, SendRefused)
  {
  }

  /** Reviewing quarter `q` of an existing action. Approval stores the
      given percentage, marks the quarter Approved and opens the next
      quarter as Draft whatever its status was; rejection needs a
      non-empty reason, marks the quarter Rejected and overwrites the
      single action-level reason. Neither checks the current status.
      Both recompute the cached progress from the resulting slots. */
  function Review(a: Action, q: int, isApproved: bool, percentage: Option<real>, reason: string)
    : (r: Result<Action>)
    requires ValidQuarter(q)
    ensures r.Err? <==> !isApproved && reason == ""
    ensures r.Err? ==> r.code == BadRequest && r.message == ReasonRequired
    ensures r.Ok? ==> ProgressConsistent(r.value)
    ensures r.Ok? && isApproved ==>
      && r.value.At(q) == a.At(q).(status := Approved, percent := percentage)
      && (q < 4 ==> r.value.At(q + 1) == a.At(q + 1).(status := Draft))
      && SameSlotsExcept(a, r.value, {q, q + 1})
      && r.value.rejectionReason == a.rejectionReason
    ensures r.Ok? && !isApproved ==>
      && r.value.At(q) == a.At(q).(status := Rejected)
      && SameSlotsExcept(a, r.value, {q})
      && r.value.rejectionReason == Some(reason)
    ensures r.Ok? ==>
      && r.value.description == a.description && r.value.goalId == a.goalId
      && r.value.createdBy == a.createdBy && r.value.responsibleCharge == a.responsibleCharge
      && r.value.activities == a.activities && r.value.budget == a.budget
      && r.value.observations == a.observations
  {
    if isApproved then
      var approved := a.With(q, a.At(q).(status := Approved, percent := percentage));
      var unlocked := if q < 4 then approved.With(q + 1, approved.At(q + 1).(status := Draft)) else approved;
      Ok(unlocked.(progress := Some(Mean(unlocked))))
    else if reason == "" then
      Err(BadRequest, ReasonRequired)
    else
      var rejected := a.With(q, a.At(q).(status := Rejected)).(rejectionReason := Some(reason));
      Ok(rejected.(progress := Some(Mean(rejected))))
  }

  /** The progress figure written by a successful review, stated on the
      inputs: the current percentages with the approved quarter's
      percentage replaced by the new one, unset counting 0. */
  lemma ReviewProgress(a: Action, q: int, isApproved: bool, percentage: Option<real>, reason: string)
    requires ValidQuarter(q)
    requires Review(a, q, isApproved, percentage, reason).Ok?
    ensures var m := if isApproved then percentage.GetOr(0.0) else Pct(a, q);
            Review(a, q, isApproved, percentage, reason).value.progress
              == Some((Pct(a, 1) + Pct(a, 2) + Pct(a, 3) + Pct(a, 4) - Pct(a, q) + m) / 4.0)
  {
  }

  /** The mean of four percentages in [0, 100] is in [0, 100]. */
  lemma MeanInRange(a: Action)
    requires AllPercentsInRange(a)
    ensures PercentInRange(Mean(a))
  {
    assert PercentInRange(Pct(a, 1)) && PercentInRange(Pct(a, 2));
    assert PercentInRange(Pct(a, 3)) && PercentInRange(Pct(a, 4));
  }

  /** A review keeps every percentage in [0, 100] when the approved
      percentage is, and then the new progress is in [0, 100] too. */
  lemma ReviewKeepsRange(a: Action, q: int, isApproved: bool, percentage: Option<real>, reason: string)
    requires ValidQuarter(q)
    requires AllPercentsInRange(a)
    requires isApproved ==> PercentInRange(percentage.GetOr(0.0))
    requires Review(a, q, isApproved, percentage, reason).Ok?
    ensures AllPercentsInRange(Review(a, q, isApproved, percentage, reason).value)
    ensures PercentInRange(Review(a, q, isApproved, percentage, reason).value.progress.value)
  {
    var b := Review(a, q, isApproved, percentage, reason).value;
    forall p | ValidQuarter(p)
      ensures PercentInRange(Pct(b, p))
    {
      assert PercentInRange(Pct(a, p));
    }
    MeanInRange(b);
  }

  /** A rejection leaves every percentage alone, so when the cached
      progress was consistent it is left unchanged. */
  lemma RejectKeepsProgress(a: Action, q: int, reason: string)
    requires ValidQuarter(q)
    requires ProgressConsistent(a)
    requires reason != ""
    ensures Review(a, q, false, None, reason).value.progress == a.progress
  {
    var b := Review(a, q, false, None, reason).value;
    assert forall p :: ValidQuarter(p) ==> Pct(b, p) == Pct(a, p);
  }

  /** The fields a process owner may edit; None means "not supplied". */
  datatype FieldUpdate = FieldUpdate(
    responsibleCharge: Option<string>,
    activities: Option<string>,
    budget: Option<real>,
    observations: Option<string>,
    completed1: Option<bool>, completed2: Option<bool>,
    completed3: Option<bool>, completed4: Option<bool>)
  {
    predicate IsEmpty() {
      && responsibleCharge.None? && activities.None? && budget.None? && observations.None?
      && completed1.None? && completed2.None? && completed3.None? && completed4.None?
    }

    /** The completion flag supplied for quarter `q`. */
    function Completed(q: int): Option<bool>
      requires ValidQuarter(q)
    {
      if q == 1 then completed1 else if q == 2 then completed2 else if q == 3 then completed3 else completed4
    }
  }

  /** Writes the supplied fields; every other column is left as it was. */
  function UpdateFields(a: Action, u: FieldUpdate): (b: Action)
    ensures forall q :: ValidQuarter(q) ==>
      b.At(q).status == a.At(q).status && b.At(q).percent == a.At(q).percent
    ensures b.rejectionReason == a.rejectionReason && b.progress == a.progress
    ensures b.description == a.description && b.goalId == a.goalId && b.createdBy == a.createdBy
  {
    a.(responsibleCharge := u.responsibleCharge.GetOr(a.responsibleCharge),
       activities := u.activities.GetOr(a.activities),
       budget := u.budget.GetOr(a.budget),
       observations := u.observations.GetOr(a.observations),
       t1 := a.t1.(completed := if u.completed1.Some? then u.completed1 else a.t1.completed),
       t2 := a.t2.(completed := if u.completed2.Some? then u.completed2 else a.t2.completed),
       t3 := a.t3.(completed := if u.completed3.Some? then u.completed3 else a.t3.completed),
       t4 := a.t4.(completed := if u.completed4.Some? then u.completed4 else a.t4.completed))
  }

  /** A field update takes exactly the supplied values: a supplied field
      ends up with its new value, an omitted one keeps the old, and an
      empty update changes nothing. */
  lemma UpdateFieldsExact(a: Action, u: FieldUpdate)
    ensures var b := UpdateFields(a, u);
      && (u.responsibleCharge.Some? ==> b.responsibleCharge == u.responsibleCharge.value)
      && (u.responsibleCharge.None? ==> b.responsibleCharge == a.responsibleCharge)
      && (u.activities.Some? ==> b.activities == u.activities.value)
      && (u.activities.None? ==> b.activities == a.activities)
      && (u.budget.Some? ==> b.budget == u.budget.value)
      && (u.budget.None? ==> b.budget == a.budget)
      && (u.observations.Some? ==> b.observations == u.observations.value)
      && (u.observations.None? ==> b.observations == a.observations)
      && (forall q :: ValidQuarter(q) && u.Completed(q).Some? ==> b.At(q).completed == u.Completed(q))
      && (forall q :: ValidQuarter(q) && u.Completed(q).None? ==> b.At(q).completed == a.At(q).completed)
    ensures u.IsEmpty() ==> UpdateFields(a, u) == a
  {
  }

  /** Applying the same update twice is applying it once. */
  lemma UpdateFieldsIdempotent(a: Action, u: FieldUpdate)
    ensures UpdateFields(UpdateFields(a, u), u) == UpdateFields(a, u)
  {
  }
}

=== FILE: store.dfy ===
/** The relational store the controllers read and write, as maps from
    row id to row plus the user/process assignment relation. Ids are
    abstract integers; the database chooses fresh ones, so the creating
    handlers take the new id as an input. */
module Store {
  import opened Wrappers
  import opened Quarters

  /** `users`: `password_hash` and `verification_token` are null (None)
      until set. */
  datatype User = User(
    name: string,
    email: string,
    roleId: int,
    active: bool,
    passwordHash: Option<string>,
    token: Option<string>)

  datatype Process = Process(name: string)

  datatype Goal = Goal(
    eje: string,
    subEje: string,
    description: string,
    indicator: string,
    processId: int,
    actionPlanId: int,
    startDate: Option<string>,
    endDate: Option<string>)

  datatype Evidence = Evidence(
    fileUrl: string,
    description: Option<string>,
    quarter: int,
    actionId: int,
    uploadedBy: int)

  datatype Store = Store(
    users: map<int, User>,
    processes: map<int, Process>,
    assignments: set<(int, int)>,
    goals: map<int, Goal>,
    actions: map<int, Action>,
    evidences: map<int, Evidence>)

  /** Every row points at rows that exist: the foreign keys of the
      schema, which the controllers rely on but do not check. */
  ghost predicate Wellformed(s: Store) {
    && (forall g :: g in s.goals ==> s.goals[g].processId in s.processes)
    && (forall a :: a in s.actions ==> s.actions[a].goalId in s.goals)
    && (forall a :: a in s.actions ==> s.actions[a].createdBy in s.users)
    && (forall e :: e in s.evidences ==> s.evidences[e].actionId in s.actions)
  }

  /** The evidences attached to action `id`. */
  function EvidencesOf(evidences: map<int, Evidence>, id: int): (r: map<int, Evidence>)
    ensures forall e :: e in r <==> e in evidences && evidences[e].actionId == id
    ensures forall e :: e in r ==> r[e] == evidences[e]
  {
    map e | e in evidences && evidences[e].actionId == id :: evidences[e]
  }
}

=== FILE: text.dfy ===
/** The string primitives the controllers and pages rely on, written out
    as JavaScript defines them: `toUpperCase`/`toLowerCase` (on ASCII
    letters), `trim`, `split` on one character, `substring(0, n)` and the
    `<` comparison of strings (code-unit order). */
module Text {

  predicate IsAsciiUpper(c: char) { 'A' <= c <= 'Z' }
  predicate IsAsciiLower(c: char) { 'a' <= c <= 'z' }
  predicate IsDigit(c: char) { '0' <= c <= '9' }

  function UpperChar(c: char): (r: char)
    ensures !IsAsciiLower(r)
    ensures IsAsciiLower(c) ==> IsAsciiUpper(r)
    ensures !IsAsciiLower(c) ==> r == c
  {
    if IsAsciiLower(c) then (c as int - 32) as char else c
  }

  function LowerChar(c: char): (r: char)
    ensures !IsAsciiUpper(r)
    ensures IsAsciiUpper(c) ==> IsAsciiLower(r)
    ensures !IsAsciiUpper(c) ==> r == c
  {
    if IsAsciiUpper(c) then (c as int + 32) as char else c
  }

  /** `s.toUpperCase()`, restricted to ASCII letters. */
  function Upper(s: string): (r: string)
    ensures |r| == |s|
    ensures forall i :: 0 <= i < |s| ==> r[i] == UpperChar(s[i])
  {
    seq(|s|, i requires 0 <= i < |s| => UpperChar(s[i]))
  }

  /** `s.toLowerCase()`, restricted to ASCII letters. */
  function Lower(s: string): (r: string)
    ensures |r| == |s|
    ensures forall i :: 0 <= i < |s| ==> r[i] == LowerChar(s[i])
  {
    seq(|s|, i requires 0 <= i < |s| => LowerChar(s[i]))
  }

  /** A string with no lower-case ASCII letter is its own upper case. */
  lemma UpperFixed(s: string)
    requires forall i :: 0 <= i < |s| ==> !IsAsciiLower(s[i])
    ensures Upper(s) == s
  {
  }

  /** The characters `String.prototype.trim` removes: the ECMAScript
      WhiteSpace (tab, vertical tab, form feed, space, no-break space,
      byte-order mark and the Zs category) and LineTerminator sets. */
  predicate IsSpace(c: char) {
    || c == ' ' || c == '\t' || c == '\n' || c == '\U{000B}' || c == '\U{000C}' || c == '\r'
    || c == '\U{00A0}' || c == '\U{1680}' || ('\U{2000}' <= c <= '\U{200A}')
    || c == '\U{2028}' || c == '\U{2029}' || c == '\U{202F}' || c == '\U{205F}'
    || c == '\U{3000}' || c == '\U{FEFF}'
  }

  predicate AllSpace(s: string) {
    forall i :: 0 <= i < |s| ==> IsSpace(s[i])
  }

  /** `trimStart`: drops the leading whitespace. */
  function TrimStart(s: string): (r: string)
    ensures |r| <= |s|
    decreases |s|
  {
    if |s| > 0 && IsSpace(s[0]) then TrimStart(s[1..]) else s
  }

  /** `trimEnd`: drops the trailing whitespace. */
  function TrimEnd(s: string): (r: string)
    ensures |r| <= |s|
    decreases |s|
  {
    if |s| > 0 && IsSpace(s[|s| - 1]) then TrimEnd(s[..|s| - 1]) else s
  }

  /** TrimStart keeps a suffix, cuts only whitespace, and stops at a
      non-space character. */
  lemma {:induction false} TrimStartSpec(s: string)
    ensures var r := TrimStart(s);
      && r == s[|s| - |r|..]
      && AllSpace(s[..|s| - |r|])
      && (|r| > 0 ==> !IsSpace(r[0]))
    decreases |s|
  {
    if |s| > 0 && IsSpace(s[0]) {
      var tail := s[1..];
      TrimStartSpec(tail);
      var r := TrimStart(tail);
      var n := |s| - |r|;
      assert tail[|tail| - |r|..] == s[n..];
      forall i | 0 <= i < n
        ensures IsSpace(s[..n][i])
      {
        if i > 0 {
          assert s[..n][i] == tail[..n - 1][i - 1];
        }
      }
    }
  }

  /** TrimEnd keeps a prefix, cuts only whitespace, and stops at a
      non-space character. */
  lemma {:induction false} TrimEndSpec(s: string)
    ensures var r := TrimEnd(s);
      && r == s[..|r|]
      && AllSpace(s[|r|..])
      && (|r| > 0 ==> !IsSpace(r[|r| - 1]))
    decreases |s|
  {
    if |s| > 0 && IsSpace(s[|s| - 1]) {
      var init := s[..|s| - 1];
      TrimEndSpec(init);
      var r := TrimEnd(init);
      assert init[..|r|] == s[..|r|];
      forall i | 0 <= i < |s| - |r|
        ensures IsSpace(s[|r|..][i])
      {
        if |r| + i < |s| - 1 {
          assert s[|r|..][i] == init[|r|..][i];
        }
      }
    }
  }

  /** `s.trim()`: the longest infix of `s` that starts and ends with a
      non-space character, or "" when there is none. */
  function Trim(s: string): (r: string)
  {
    TrimEnd(TrimStart(s))
  }

  /** The trimmed string is an infix of the input, everything cut off is
      whitespace, and neither end of the result is whitespace. */
  lemma TrimIsInfix(s: string)
    ensures exists i, j {:trigger s[i..j]} ::
              0 <= i <= j <= |s| && Trim(s) == s[i..j] && AllSpace(s[..i]) && AllSpace(s[j..])
    ensures |Trim(s)| > 0 ==> !IsSpace(Trim(s)[0]) && !IsSpace(Trim(s)[|Trim(s)| - 1])
  {
    var t := TrimStart(s);
    var e := TrimEnd(t);
    TrimStartSpec(s);
    TrimEndSpec(t);
    var i := |s| - |t|;
    var j := i + |e|;
    assert e == s[i..j];
    assert s[j..] == t[|e|..];
    if |e| > 0 {
      assert e[0] == t[0];
    }
  }

  /** A string trims to "" exactly when it is made of whitespace only. */
  lemma TrimEmptyIffAllSpace(s: string)
    ensures Trim(s) == "" <==> AllSpace(s)
  {
    var t := TrimStart(s);
    var n := |s| - |t|;
    TrimStartSpec(s);
    TrimEndSpec(t);
    if !AllSpace(s) {
      var k :| 0 <= k < |s| && !IsSpace(s[k]);
      assert t[k - n] == s[k];
    }
  }

  /** Trimming twice is trimming once. */
  lemma TrimIdempotent(s: string)
    ensures Trim(Trim(s)) == Trim(s)
  {
    var t := TrimStart(s);
    var r := TrimEnd(t);
    TrimStartSpec(s);
    TrimEndSpec(t);
    if |r| > 0 {
      assert r[0] == t[0];
    }
    assert TrimStart(r) == r;
    assert TrimEnd(r) == r;
  }

  /** `s.substring(0, n)`: the first `n` characters, or all of them. */
  function Prefix(s: string, n: nat): (r: string)
    ensures |r| <= n && |r| <= |s|
    ensures |s| <= n ==> r == s
    ensures r <= s
  {
    if |s| <= n then s else s[..n]
  }

  /** `s.split(sep)` for a one-character separator: the maximal runs of
      non-separator characters, empty runs included, so there is always
      one part more than there are separators. */
  function Split(s: string, sep: char): (parts: seq<string>)
    ensures |parts| >= 1
    decreases |s|
  {
    if |s| == 0 then [""]
    else
      var rest := Split(s[1..], sep);
      if s[0] == sep then [""] + rest
      else [[s[0]] + rest[0]] + rest[1..]
  }

  /** `parts.join(sep)`: the inverse of Split. */
  function Join(parts: seq<string>, sep: char): string
    requires |parts| >= 1
    decreases |parts|
  {
    if |parts| == 1 then parts[0] else parts[0] + [sep] + Join(parts[1..], sep)
  }

  predicate NoSep(s: string, sep: char) {
    forall i :: 0 <= i < |s| ==> s[i] != sep
  }

  /** Splitting loses nothing and leaves no separator inside a part. */
  lemma {:induction false} JoinSplit(s: string, sep: char)
    ensures Join(Split(s, sep), sep) == s
    ensures forall k :: 0 <= k < |Split(s, sep)| ==> NoSep(Split(s, sep)[k], sep)
    decreases |s|
  {
    if |s| > 0 {
      var rest := Split(s[1..], sep);
      JoinSplit(s[1..], sep);
      if s[0] == sep {
        assert Split(s, sep)[1..] == rest;
      } else {
        var parts := Split(s, sep);
        assert parts[0] == [s[0]] + rest[0];
        assert forall k :: 1 <= k < |parts| ==> parts[k] == rest[k];
        if |rest| > 1 {
          assert parts[1..] == rest[1..];
          assert Join(rest, sep) == rest[0] + [sep] + Join(rest[1..], sep);
        }
      }
    }
  }

  /** A string without the separator splits into itself alone. */
  lemma {:induction false} SplitNoSep(s: string, sep: char)
    requires NoSep(s, sep)
    ensures Split(s, sep) == [s]
    decreases |s|
  {
    if |s| > 0 {
      SplitNoSep(s[1..], sep);
      assert [s[0]] + s[1..] == s;
    }
  }

  /** Splitting `a + [sep] + b`, where `b` has no separator, ends in `b`. */
  lemma {:induction false} SplitLast(a: string, b: string, sep: char)
    requires NoSep(b, sep)
    ensures var p := Split(a + [sep] + b, sep); |p| >= 2 && p[|p| - 1] == b
    decreases |a|
  {
    if |a| == 0 {
      SplitNoSep(b, sep);
      assert a + [sep] + b == [sep] + b;
      assert ([sep] + b)[1..] == b;
    } else {
      SplitLast(a[1..], b, sep);
      assert (a + [sep] + b)[1..] == a[1..] + [sep] + b;
    }
  }

  /** Splitting `a + [sep] + b`, where `a` has no separator, starts with
      `a` and goes on with the parts of `b`. */
  lemma {:induction false} SplitFirst(a: string, b: string, sep: char)
    requires NoSep(a, sep)
    ensures Split(a + [sep] + b, sep) == [a] + Split(b, sep)
    decreases |a|
  {
    if |a| == 0 {
      assert a + [sep] + b == [sep] + b;
      assert ([sep] + b)[1..] == b;
    } else {
      SplitFirst(a[1..], b, sep);
      assert (a + [sep] + b)[1..] == a[1..] + [sep] + b;
      assert [a[0]] + a[1..] == a;
    }
  }

  /** `s.split(sep).pop()`: the text after the last separator, or all of
      `s` when it has none. */
  function LastPart(s: string, sep: char): (r: string)
  {
    var parts := Split(s, sep);
    parts[|parts| - 1]
  }

  /** LastPart holds no separator, is a suffix of `s`, and is all of `s`
      exactly when `s` holds no separator; otherwise a separator comes
      right before it. */
  lemma LastPartSpec(s: string, sep: char)
    ensures NoSep(LastPart(s, sep), sep)
    ensures NoSep(s, sep) ==> LastPart(s, sep) == s
    ensures !NoSep(s, sep) ==> exists a {:trigger a + [sep]} :: s == a + [sep] + LastPart(s, sep)
  {
    JoinSplit(s, sep);
    if NoSep(s, sep) {
      SplitNoSep(s, sep);
    } else {
      var k := LastIndex(s, sep);
      assert s == s[..k] + [sep] + s[k + 1..];
      SplitLast(s[..k], s[k + 1..], sep);
    }
  }

  /** The position of the last separator among the first `n` characters
      of `s`, or -1 when there is none. */
  function LastIndexBelow(s: string, sep: char, n: nat): (k: int)
    requires n <= |s|
    ensures -1 <= k < n
    ensures k == -1 <==> forall i :: 0 <= i < n ==> s[i] != sep
    ensures k >= 0 ==> s[k] == sep && forall i :: k < i < n ==> s[i] != sep
  {
    if n == 0 then -1
    else if s[n - 1] == sep then n - 1
    else LastIndexBelow(s, sep, n - 1)
  }

  /** The position of the last separator in `s`, or -1 when there is none. */
  function LastIndex(s: string, sep: char): (k: int)
    ensures -1 <= k < |s|
    ensures k == -1 <==> NoSep(s, sep)
    ensures k >= 0 ==> s[k] == sep && NoSep(s[k + 1..], sep)
  {
    var k := LastIndexBelow(s, sep, |s|);
    if k >= 0 then
      NoSepAfter(s, sep, k);
      k
    else
      k
  }

  /** No separator after position `k` means none in the suffix after it. */
  lemma NoSepAfter(s: string, sep: char, k: nat)
    requires k < |s|
    requires forall i :: k < i < |s| ==> s[i] != sep
    ensures NoSep(s[k + 1..], sep)
  {
    var t := s[k + 1..];
    forall i | 0 <= i < |t|
      ensures t[i] != sep
    {
      assert t[i] == s[k + 1 + i];
    }
  }

  /** JavaScript's `a < b` on strings: lexicographic by character code,
      a proper prefix coming first. */
  predicate LexLess(a: string, b: string)
    decreases |a|
  {
    if |a| == 0 then |b| > 0
    else if |b| == 0 then false
    else if a[0] != b[0] then a[0] < b[0]
    else LexLess(a[1..], b[1..])
  }

  predicate LexLe(a: string, b: string) {
    a == b || LexLess(a, b)
  }

  lemma {:induction false} LexLessIrreflexive(a: string)
    ensures !LexLess(a, a)
    decreases |a|
  {
    if |a| > 0 { LexLessIrreflexive(a[1..]); }
  }

  lemma {:induction false} LexLessTransitive(a: string, b: string, c: string)
    requires LexLess(a, b) && LexLess(b, c)
    ensures LexLess(a, c)
    decreases |a|
  {
    if |a| > 0 && |b| > 0 && |c| > 0 && a[0] == b[0] && b[0] == c[0] {
      LexLessTransitive(a[1..], b[1..], c[1..]);
    }
  }

  /** Any two different strings are ordered one way or the other. */
  lemma {:induction false} LexLessTotal(a: string, b: string)
    ensures a == b || LexLess(a, b) || LexLess(b, a)
    decreases |a|
  {
    if |a| > 0 && |b| > 0 && a[0] == b[0] {
      LexLessTotal(a[1..], b[1..]);
      if a[1..] == b[1..] {
        assert a == [a[0]] + a[1..] && b == [b[0]] + b[1..];
      }
    }
  }

  lemma {:induction false} LexLessAsymmetric(a: string, b: string)
    requires LexLess(a, b)
    ensures !LexLess(b, a)
  {
    if LexLess(b, a) {
      LexLessTransitive(a, b, a);
      LexLessIrreflexive(a);
    }
  }

  /** A proper prefix sorts before the longer string. */
  lemma {:induction false} LexLessPrefix(p: string, q: string)
    requires |q| > 0
    ensures LexLess(p, p + q)
    decreases |p|
  {
    if |p| > 0 {
      assert (p + q)[1..] == p[1..] + q;
      LexLessPrefix(p[1..], q);
    }
  }
}

=== FILE: user_controller.dfy ===
/** The user administration endpoints: account creation with an
    activation code, enabling and disabling, process assignment and
    access reset. */
module UserController {
  import opened Wrappers
  import opened Text
  import opened Store
  import GoalController

  const FieldsRequired := "Nombre, email y rol son obligatorios."
  const EmailTaken := "El correo ya está registrado."
  const SelfLockout := "Por seguridad, no puedes bloquear tu propia cuenta."
  const UserNotFound := "Usuario no encontrado"
  const UserNotFoundOnReset := "Usuario no encontrado."
  const ProcessIdMissing := "Se requiere el process_id."

  type Byte = x: int | 0 <= x < 256

  /** One hexadecimal digit as `Buffer.toString('hex')` writes it. */
  function HexDigit(n: int): (c: char)
    requires 0 <= n < 16
    ensures IsDigit(c) || 'a' <= c <= 'f'
  {
    if n < 10 then ('0' as int + n) as char else ('a' as int + n - 10) as char
  }

  /** `Buffer.toString('hex')`: two lower-case digits per byte, high
      nibble first. */
  function Hex(bytes: seq<Byte>): (h: string)
    ensures |h| == 2 * |bytes|
    ensures forall i :: 0 <= i < |h| ==> IsDigit(h[i]) || 'a' <= h[i] <= 'f'
  {
    if |bytes| == 0 then []
    else [HexDigit(bytes[0] / 16), HexDigit(bytes[0] % 16)] + Hex(bytes[1..])
  }

  /** A character an activation code may hold. */
  predicate IsCodeChar(c: char) {
    IsDigit(c) || 'A' <= c <= 'F'
  }

  /** `crypto.randomBytes(3).toString('hex').toUpperCase()`, with the three
      random bytes as the input. */
  function ActivationCode(bytes: seq<Byte>): (code: string)
    requires |bytes| == 3
    ensures |code| == 6
    ensures forall i :: 0 <= i < |code| ==> IsCodeChar(code[i])
    ensures Upper(code) == code
  {
    var code := Upper(Hex(bytes));
    UpperFixed(code);
    code
  }

  /** The value of one upper-case hexadecimal digit. */
  function DigitValue(c: char): (n: int)
    requires IsCodeChar(c)
    ensures 0 <= n < 16
  {
    if IsDigit(c) then c as int - '0' as int else c as int - 'A' as int + 10
  }

  /** Reads upper-case hexadecimal text back into bytes. */
  function Unhex(code: string): (bytes: seq<int>)
    requires |code| % 2 == 0
    requires forall i :: 0 <= i < |code| ==> IsCodeChar(code[i])
    decreases |code|
  {
    if |code| == 0 then []
    else [DigitValue(code[0]) * 16 + DigitValue(code[1])] + Unhex(code[2..])
  }

  /** Upper-casing the hex text of some bytes and reading it back gives the
      bytes: the code loses none of the randomness it was made from. */
  lemma {:induction false} HexRoundTrip(bytes: seq<Byte>)
    ensures forall i :: 0 <= i < |Upper(Hex(bytes))| ==> IsCodeChar(Upper(Hex(bytes))[i])
    ensures Unhex(Upper(Hex(bytes))) == bytes
    decreases |bytes|
  {
    if |bytes| > 0 {
      var code := Upper(Hex(bytes));
      HexRoundTrip(bytes[1..]);
      assert Hex(bytes)[2..] == Hex(bytes[1..]);
      assert code[2..] == Upper(Hex(bytes[1..]));
      assert bytes == [bytes[0]] + bytes[1..];
    }
  }

  /** The code returned to the administrator determines the random bytes. */
  lemma ActivationCodeRoundTrip(bytes: seq<Byte>)
    requires |bytes| == 3
    ensures Unhex(ActivationCode(bytes)) == bytes
  {
    HexRoundTrip(bytes);
  }

  /** Some account already has this email. */
  predicate EmailRegistered(users: map<int, User>, email: string) {
    exists id :: id in users && users[id].email == email
  }

  /** No two accounts share an email: the invariant the registration check
      keeps. */
  ghost predicate EmailsUnique(users: map<int, User>) {
    forall a, b :: a in users && b in users && users[a].email == users[b].email ==> a == b
  }

  /** Only the row of user `id` may differ, and it stays in the table. */
  ghost predicate OnlyUserChanged(s: Store, t: Store, id: int) {
    && t.(users := s.users) == s
    && t.users.Keys == s.users.Keys
    && forall other :: other in s.users && other != id ==> t.users[other] == s.users[other]
  }

  /** POST /users. Missing or empty name, email or role (role 0 counts as
      missing) is refused first, then an email already registered. The new
      account is inactive, has no password and holds the activation code,
      which is also the reply. */
  function CreateUser(s: Store, name: Option<string>, email: Option<string>, roleId: Option<int>,
                      freshId: int, bytes: seq<Byte>): (r: Result<(Store, string)>)
    requires freshId !in s.users && |bytes| == 3
    ensures name.None? || name == Some("") || email.None? || email == Some("") || !Given(roleId) ==>
      r == Err(BadRequest, FieldsRequired)
    ensures r.Ok? <==> name.Some? && name.value != "" && email.Some? && email.value != ""
                       && Given(roleId) && !EmailRegistered(s.users, email.value)
    ensures r.Err? && r.code == BadRequest && r.message != FieldsRequired ==> r.message == EmailTaken
    ensures r.Ok? ==> r.value.0.(users := s.users) == s
    ensures r.Ok? ==> r.value.0.users.Keys == s.users.Keys + {freshId}
    ensures r.Ok? ==> forall id :: id in s.users ==> r.value.0.users[id] == s.users[id]
    ensures r.Ok? ==> var u := r.value.0.users[freshId];
      && u.name == name.value && u.email == email.value && u.roleId == roleId.value
      && !u.active && u.passwordHash.None? && u.token == Some(r.value.1)
    ensures r.Ok? ==> |r.value.1| == 6 && forall i :: 0 <= i < 6 ==> IsCodeChar(r.value.1[i])
    ensures r.Err? ==> r.code == BadRequest
  {
    if name.None? || name.value == "" || email.None? || email.value == "" || !Given(roleId) then
      Err(BadRequest, FieldsRequired)
    else if EmailRegistered(s.users, email.value) then
      Err(BadRequest, EmailTaken)
    else
      var code := ActivationCode(bytes);
      var u := User(name.value, email.value, roleId.value, false, None, Some(code));
      Ok((s.(users := s.users[freshId := u]), code))
  }

  /** Registration keeps emails unique. */
  lemma CreateUserKeepsEmailsUnique(s: Store, name: Option<string>, email: Option<string>,
                                    roleId: Option<int>, freshId: int, bytes: seq<Byte>)
    requires freshId !in s.users && |bytes| == 3
    requires EmailsUnique(s.users)
    requires CreateUser(s, name, email, roleId, freshId, bytes).Ok?
    ensures EmailsUnique(CreateUser(s, name, email, roleId, freshId, bytes).value.0.users)
  {
  }

  /** PATCH /users/:id/status. A requester may not disable their own
      account (re-enabling it is allowed); otherwise the flag is written,
      and an unknown user is reported. */
  function ToggleUserStatus(s: Store, id: int, requester: int, isActive: bool): (r: Result<Store>)
    ensures id == requester && !isActive ==> r == Err(BadRequest, SelfLockout)
    ensures !(id == requester && !isActive) ==> (r.Ok? <==> id in s.users)
    ensures r.Err? && r.code != BadRequest ==> r == Err(NotFound, UserNotFound)
    ensures r.Ok? ==> OnlyUserChanged(s, r.value, id)
    ensures r.Ok? ==> r.value.users[id].active == isActive
    ensures r.Ok? ==> r.value.users[id].(active := s.users[id].active) == s.users[id]
  {
    if id == requester && !isActive then Err(BadRequest, SelfLockout)
    else if id !in s.users then Err(NotFound, UserNotFound)
    else Ok(s.(users := s.users[id := s.users[id].(active := isActive)]))
  }

  /** Whatever status change a requester asks for, they stay enabled. */
  lemma ToggleNeverDisablesRequester(s: Store, id: int, requester: int, isActive: bool)
    requires requester in s.users && s.users[requester].active
    requires ToggleUserStatus(s, id, requester, isActive).Ok?
    ensures ToggleUserStatus(s, id, requester, isActive).value.users[requester].active
  {
  }

  /** POST /users/:id/assign: set insertion of the (user, process) pair;
      a pair already present is left as it is. */
  function AssignProcess(s: Store, id: int, processId: Option<int>): (r: Result<Store>)
    ensures r.Err? <==> !Given(processId)
    ensures r.Err? ==> r == Err(BadRequest, ProcessIdMissing)
    ensures r.Ok? ==> r.value.(assignments := s.assignments) == s
    ensures r.Ok? ==> forall pair :: pair in r.value.assignments <==>
      pair in s.assignments || pair == (id, processId.value)
  {
    if !Given(processId) then Err(BadRequest, ProcessIdMissing)
    else Ok(s.(assignments := s.assignments + {(id, processId.value)}))
  }

  /** DELETE /users/:id/processes/:processId: removes exactly that pair,
      and an absent pair is not an error. */
  function UnassignProcess(s: Store, id: int, processId: int): (t: Store)
    ensures t.(assignments := s.assignments) == s
    ensures forall pair :: pair in t.assignments <==> pair in s.assignments && pair != (id, processId)
  {
    s.(assignments := s.assignments - {(id, processId)})
  }

  /** Assigning twice is assigning once, and assigning an existing pair
      changes nothing. */
  lemma AssignIdempotent(s: Store, id: int, processId: int)
    requires processId != 0
    ensures AssignProcess(AssignProcess(s, id, Some(processId)).value, id, Some(processId))
         == AssignProcess(s, id, Some(processId))
    ensures (id, processId) in s.assignments ==> AssignProcess(s, id, Some(processId)) == Ok(s)
  {
    if (id, processId) in s.assignments {
      assert s.assignments + {(id, processId)} == s.assignments;
    }
  }

  /** Unassigning a pair that was not there before an assignment undoes the
      assignment; unassigning an absent pair changes nothing. */
  lemma UnassignUndoesAssign(s: Store, id: int, processId: int)
    requires processId != 0
    ensures (id, processId) !in s.assignments ==>
      UnassignProcess(AssignProcess(s, id, Some(processId)).value, id, processId) == s
    ensures (id, processId) !in s.assignments ==> UnassignProcess(s, id, processId) == s
  {
    if (id, processId) !in s.assignments {
      assert s.assignments + {(id, processId)} - {(id, processId)} == s.assignments;
      assert s.assignments - {(id, processId)} == s.assignments;
    }
  }

  /** Assignment is what the process owner's goal list follows: once
      process p is assigned, every goal of p is listed; once it is
      unassigned, none is. */
  lemma AssignmentDrivesGoalList(s: Store, user: int, p: int, id: int)
    requires p != 0 && id in s.goals && s.goals[id].processId == p
    ensures (id, s.goals[id]) in GoalController.GoalsForJefe(AssignProcess(s, user, Some(p)).value, user)
    ensures (id, s.goals[id]) !in GoalController.GoalsForJefe(UnassignProcess(s, user, p), user)
  {
  }

  /** POST /users/:id/reset: the account is disabled and given a new
      activation code; its password hash stays until the code is used. */
  function ResetUserAccess(s: Store, id: int, bytes: seq<Byte>): (r: Result<(Store, string)>)
    requires |bytes| == 3
    ensures r.Ok? <==> id in s.users
    ensures r.Err? ==> r == Err(NotFound, UserNotFoundOnReset)
    ensures r.Ok? ==> OnlyUserChanged(s, r.value.0, id)
    ensures r.Ok? ==> var u := r.value.0.users[id];
      && !u.active && u.token == Some(r.value.1)
      && u.(active := s.users[id].active, token := s.users[id].token) == s.users[id]
    ensures r.Ok? ==> |r.value.1| == 6 && forall i :: 0 <= i < 6 ==> IsCodeChar(r.value.1[i])
  {
    if id !in s.users then Err(NotFound, UserNotFoundOnReset)
    else
      var code := ActivationCode(bytes);
      Ok((s.(users := s.users[id := s.users[id].(active := false, token := Some(code))]), code))
  }

  /** A reset changes no email, so it keeps emails unique. */
  lemma ResetKeepsEmailsUnique(s: Store, id: int, bytes: seq<Byte>)
    requires |bytes| == 3 && EmailsUnique(s.users)
    requires ResetUserAccess(s, id, bytes).Ok?
    ensures EmailsUnique(ResetUserAccess(s, id, bytes).value.0.users)
  {
  }
}

=== FILE: wrappers.dfy ===
/** Failure-compatible result types shared by every handler of the model.

    A handler either answers with an HTTP error (status code and the
    message the server puts in its JSON body) or produces a value. */
module Wrappers {

  datatype Option<+T> = None | Some(value: T) {

    /** Returns the value in Some, or `default` for None. */
    function GetOr(default: T): T {
      match this
      case Some(v) => v
      case None => default
    }
  }

  /** The outcome of a request: a success value, or an HTTP status code
      with the error message of the response body. */
  datatype Result<+T> = Ok(value: T) | Err(code: int, message: string) {

    predicate IsFailure() {
      Err?
    }

    function PropagateFailure<U>(): Result<U>
      requires Err?
    {
      Err(code, message)
    }

    function Extract(): T
      requires Ok?
    {
      value
    }
  }

  /** What a client-side handler does with a form: refuses it with a
      message before any request, stops because the user cancelled the
      confirmation dialog, or goes ahead with a request body. */
  datatype Outcome<+T> = Refused(message: string) | Cancelled | Proceed(request: T)

  /** The status codes the controllers answer with. */
  const BadRequest := 400
  const Unauthorized := 401
  const Forbidden := 403
  const NotFound := 404
  const Conflict := 409
  const InternalError := 500

  /** A numeric body field passes JavaScript's truthiness test: it is
      present and not 0. */
  predicate Given(o: Option<int>) {
    o.Some? && o.value != 0
  }

  /** A string value passes JavaScript's truthiness test: it is present
      and not empty. */
  predicate Truthy(v: Option<string>) {
    v.Some? && v.value != ""
  }

  /** True iff `r` is an error carrying exactly this status code. */
  predicate IsErr<T>(r: Result<T>, code: int) {
    r.Err? && r.code == code
  }
}
